=== FILE: README.md ===
# Colombian real-estate scraper and loaders, modelled in Dafny

The job scrapes listings from a property-search API and flattens each one
into a ten-field record. It then cleans the records and splits them into a
star schema: a fact table plus the `cities` and `property_type` dimensions.
This project models the pure logic of that pipeline as functions over
sequences and proves what the code promises.

- **Fetcher** (`get_data` and its `@retry` decorator). Statuses 500 and 504
  raise a `ValueError` and every other status is returned. The decorator
  retries any exception and makes at most three POSTs. After the third
  failure it raises that attempt's exception again.
- **Paginate** (`data_extract`).
  - Each property type's pages are requested from 1 upwards.
  - The page counter goes up by one per answered page.
  - The loop stops only when a call ends in a `ValueError`.
  - A transport exception, or a response text without `hits.hits`, escapes
    the function.
  - The answered pages' hits are concatenated in property-type-then-page
    order.
  - An empty property-type list leaves `raw_data2` unbound.
- **Normalize** (`data_transform`). Ten fixed paths are read out of one raw
  hit. It succeeds exactly when every path is present.
- **Scraper** (`__main__`). The cities are extracted in `city_information`
  order and their hits concatenated. Every hit is then cleaned, and the first
  malformed record stops the run.
- **LoadPolars, LoadPandas** (`impute_values`, `create_tables`) and
  **LoadPyspark** (`impute_values` only). These are the engine variants of
  imputation and dimension building. **Variants** states where they agree
  and where they differ.

The network is a finite stream of replies (`Fetcher.Reply`), one per POST in
the order the POSTs are made. Any server behaviour is some stream. A run that
needs more replies than the stream holds ends as `Unfinished` or `Pending`,
so every function is total and no fuel is needed. `Paginate.Script`
describes a server that answers some pages and then fails three times. The
`...Script` lemmas compute the result exactly for such a server.

Shared modules:
- `Wrappers`: `Option` and `Result`.
- `Seqs`: map, filter, keep-first deduplication, first-appearance order and
  flattening.
- `Lex`: code-point string order and sorting, used by the polars `.sort()`.
- `Rows`: the loader row.
- `Tables`: numbered dimensions, left join, projection and foreign-key
  round trip.

## Model

web_scraping_real_state.py is a byte-identical copy of
web_scraping_real_estate.py, so every row citing the latter holds for the
same lines of the former.

| member | source | states |
|---|---|---|
| Fetcher.GetData | web_scraping_real_estate.py:64-73 | a call raises exactly on a transport failure or on status 500 or 504; a 500 or 504 raises `ValueError` carrying that status; every other status, non-2xx included, is returned with its text unchanged |
| Fetcher.RetryFrom | web_scraping_real_estate.py:46 | from attempt number `a` on, at most 4-a POSTs are made; the outcome is that of the last POST made, and every earlier POST raised; a raised outcome means every remaining attempt was used; the call is pending exactly when the stream is shorter than the remaining attempts and every reply in it raises |
| Fetcher.Retry | web_scraping_real_estate.py:46 | the decorated `get_data` makes 1 to 3 POSTs and returns the first that does not raise; if all three raise, the third one's exception propagates |
| Fetcher.RetryRaisedAll | web_scraping_real_estate.py:46 | a call that ends by raising made all three POSTs, and every one of them raised |
| Fetcher.RetryAnswered | web_scraping_real_estate.py:46 | after fewer than three raising replies, the first non-raising reply is returned and exactly those replies are used, whatever follows |
| Fetcher.RetryExhausted | web_scraping_real_estate.py:46 | three raising replies end the call with the third one's exception, whatever follows |
| Fetcher.RetryTruncate | web_scraping_real_estate.py:46 | a finished call gives the same result on any shorter stream that still holds the replies it used |
| Fetcher.RetryExtends | web_scraping_real_estate.py:46 | a finished call does not depend on replies after the ones it used |
| Paginate.BuildRequest | web_scraping_real_estate.py:102 | the payload has `rows` = 21, the page number in both `variables.page` and `variables.params.page`, a one-element property-type list and the city's location |
| Paginate.RequestsDistinguishPages | web_scraping_real_estate.py:102 | two payloads are equal if and only if city, property type and page are equal |
| Paginate.PaginateFrom | web_scraping_real_estate.py:98-113 | a finished loop used at least three replies and no more than the stream holds; the only ways it raises are an escaping transport exception and an unreadable response text |
| Paginate.PaginateRequests | web_scraping_real_estate.py:98-113 | the page counter starts at the given page and goes up by one per answered page: call i of a finished loop sent the payload of page `page`+i, and there is one call per answered page plus the final one |
| Paginate.PaginateEndsOnValueError | web_scraping_real_estate.py:104-108 | the loop's only exit is a call whose three attempts all raised, the last one with a `ValueError` |
| Paginate.PaginateExhaustedStep | web_scraping_real_estate.py:104-108 | when the first call's three attempts raise, ending with a 500 or 504, the loop ends with no page after sending one payload |
| Paginate.PaginateAnsweredStep | web_scraping_real_estate.py:104-113 | when the first call is answered with a readable page, that page is kept and the loop goes on with the next page number on the replies that follow |
| Paginate.PaginateScript | web_scraping_real_estate.py:98-113 | against a server that answers n calls, each after fewer than three failures, and then fails three times, the loop finishes and returns exactly the n answered pages in call order, having used exactly those replies |
| Paginate.PaginateRaisedStep | web_scraping_real_estate.py:104-108 | when the first call raises a `ValueError` after its retries, its three replies form an exhausted call and the loop ends with no page after one payload |
| Paginate.PaginateReturnedStep | web_scraping_real_estate.py:104-113 | when the first call returns a readable text, its replies form an answered call whose page is kept, and the loop goes on with the next page number on the replies that follow |
| Paginate.PaginateIsScripted | web_scraping_real_estate.py:98-113 | every finished loop, on any stream, used exactly the replies of some such server and returned exactly that server's answered pages, so the results against such servers cover every finished run |
| Paginate.PaginateTruncate | web_scraping_real_estate.py:98-113 | a finished loop gives the same result on any shorter stream that still holds the replies it used |
| Paginate.PaginateCrashedStep | web_scraping_real_estate.py:104-112 | only a `ValueError` is caught: a first call whose last attempt raised the transport's own exception, or whose answer has no readable `hits.hits`, ends the loop with that crash, whatever replies follow |
| Paginate.PaginateAnsweredThenCrash | web_scraping_real_estate.py:104-113 | an answered first call does not catch a crash in the rest of the loop: the loop crashes with it |
| Paginate.PaginateReturnedThenCrash | web_scraping_real_estate.py:104-113 | in a crashed loop whose first call returned a readable text, that call is an answered call and the crash is the crash of the rest of the loop |
| Paginate.PaginateCrashAfterCalls | web_scraping_real_estate.py:98-113 | on a stream made of answered calls and then a call whose outcome escapes, the loop crashes with that call's crash |
| Paginate.PaginateCrashIsScripted | web_scraping_real_estate.py:98-113 | conversely, every crashed loop, on any stream, answered some calls and then made a call whose outcome escapes, and the loop's crash is that call's |
| Paginate.PaginateCrashExtends | web_scraping_real_estate.py:98-113 | a crashed loop does not depend on replies after its crash, so it makes no further POST |
| Paginate.PaginateExtends | web_scraping_real_estate.py:98-113 | a finished loop does not depend on replies after the ones it used |
| Paginate.ExtractTypes | web_scraping_real_estate.py:95-113 | a finished loop over the property types has one run per property type, used at least three replies per property type and no more than the stream holds |
| Paginate.ExtractTypesFromPageOne | web_scraping_real_estate.py:97-113 | `page` is reset to 1 for every property type: in a finished loop, call i of property type j sent the payload of page 1 + i for that type, and each type made one call per answered page plus the final one |
| Paginate.ExtractTypesCrashed | web_scraping_real_estate.py:95-113 | the loop over the property types crashes if and only if one type's loop crashes after the earlier types finished, and with that crash |
| Paginate.ExtractScript | web_scraping_real_estate.py:95-113 | against one such server per property type, the pages accumulated in the shared `raw_data` are every answered page in property-type-then-page order |
| Paginate.ExtractTypesTruncate | web_scraping_real_estate.py:95-113 | a finished loop over the property types gives the same result on any shorter stream that still holds the replies it used |
| Paginate.ExtractTypesIsScripted | web_scraping_real_estate.py:95-113 | every finished loop over the property types, on any stream, used exactly the replies of one such server per property type, in order, and its shared `raw_data` is exactly those servers' answered pages in property-type-then-page order |
| Paginate.ExtractTypesExtends | web_scraping_real_estate.py:95-113 | a finished loop over the property types does not depend on replies after the ones it used |
| Paginate.DataExtract | web_scraping_real_estate.py:95-118 | an empty property-type list raises, because `raw_data2` is unbound; otherwise a finished run returns the flattened pages of all property types and used at least three replies per property type |
| Paginate.DataExtractScript | web_scraping_real_estate.py:95-118 | against one such server per property type, `data_extract` returns the concatenation of every answered page's hits, property type by property type, page by page |
| Paginate.DataExtractTruncate | web_scraping_real_estate.py:95-118 | a finished `data_extract` gives the same result on any shorter stream that still holds the replies it used |
| Paginate.DataExtractExtends | web_scraping_real_estate.py:95-118 | a finished `data_extract` does not depend on replies after the ones it used, which lets several cities share one stream |
| Normalize.ReadFields | web_scraping_real_estate.py:139-150 | the ten statements after `_source.listing` succeed if and only if all ten paths are present, each field then holding its path's value; otherwise the error names the first statement, in order, whose path is missing, and every earlier path is present |
| Normalize.DataTransform | web_scraping_real_estate.py:138-150 | succeeds if and only if all ten paths are present, and then each field holds its path's value; otherwise it fails on a missing path, and every path read before it, in statement order, is present |
| Normalize.RoomsAndCityPaths | web_scraping_real_estate.py:142-148 | in a successful transform, `rooms` is the value of `technicalSheet[7]` and `city` is the name of the first entry of `locations.city` |
| Scraper.ExtractCities | web_scraping_real_estate.py:170-175 | a finished extraction of all cities used no more replies than the stream holds |
| Scraper.ExtractCitiesConcat | web_scraping_real_estate.py:170-175 | when each city's `data_extract` finishes on its own stretch of the stream, the combined hits are each city's hits concatenated in `city_information` order |
| Scraper.ExtractCitiesSplit | web_scraping_real_estate.py:170-175 | every finished extraction, on any stream, used one stretch of replies per city, in `city_information` order, and each city's `data_extract` finishes on its stretch using all of it |
| Scraper.ExtractCitiesIsConcat | web_scraping_real_estate.py:170-175 | every finished extraction, on any stream, returns the hits each city's `data_extract` finds on its own stretch, concatenated in `city_information` order |
| Scraper.ExtractCitiesCrashed | web_scraping_real_estate.py:170-175 | the loop over the cities crashes if and only if one city's `data_extract` raises after the earlier cities finished, and with that city's crash |
| Scraper.ExtractCitiesLowerBound | web_scraping_real_estate.py:170-173 | a finished extraction used at least three replies for every (city, property type) pair |
| Scraper.TransformAll | web_scraping_real_estate.py:178 | succeeds if and only if every record transforms, with the same length and each cleaned record at the same index; otherwise it names the first failing record and its missing field |
| Scraper.Run | web_scraping_real_estate.py:170-178 | the run finishes if and only if the extraction finishes and every extracted hit transforms; then there is one cleaned record per extracted hit, in the same order; a crashed extraction crashes the run with the same crash, a malformed record crashes it with `TransformAll`'s error, and the run is unfinished only when the extraction is |
| Scraper.Scrape | web_scraping_real_estate.py:168-178 | the program's own run over three cities and three property types makes at least 27 POSTs when it finishes |
| LoadPolars.ImputeRow | load_db_polars.py:15-41 | a null `rooms` becomes 1 for `Apartaestudio` and 0 otherwise, and a non-null `rooms` is kept; a non-null `stratum` is clamped into [1, 6] and a null one stays null; no other column changes |
| LoadPolars.ImputeValues | load_db_polars.py:12-41 | deduplication comes first: the output is the row rules applied once to each distinct input row that has an area, in some order, so it has one row per such distinct row; no more rows than the input; every output row has an area, a `rooms` value and a stratum in [1, 6] |
| LoadPolars.ImputeRowIdempotent | load_db_polars.py:15-41 | the row rules applied twice give the same row as applied once |
| LoadPolars.FixedRowSurvives | load_db_polars.py:12-41 | an input row that has an area and is a fixed point of the row rules appears in the output |
| LoadPolars.ImputeTwiceKeepsRows | load_db_polars.py:12-41 | every row of the output survives a second run |
| LoadPolars.ImputeTwiceAddsNothing | load_db_polars.py:12-41 | a second run produces no row that is not in the first run's output |
| LoadPolars.ImputeTwiceSameRows | load_db_polars.py:12-41 | running twice gives the same set of rows as running once |
| LoadPolars.ImputeOnceKeepsDuplicate | load_db_polars.py:12-41 | two rows that differ only in their strata, both above 6, survive deduplication and both become stratum 6, so the output holds a duplicate |
| LoadPolars.ImputeAgainRemovesDuplicate | load_db_polars.py:12-41 | a second run on two equal stratum-6 rows keeps one of them |
| LoadPolars.ImputeTwiceNotSameMultiset | load_db_polars.py:12-41 | on two rows with strata 7 and 8, running twice and running once give different multisets of rows |
| LoadPolars.CreateTables | load_db_polars.py:62-83 | both dimensions hold exactly the distinct column values, in ascending order, keyed 1..N; the fact table has one row per input row; each fact row carries the row's other columns, and its keys look up to the row's city and property type |
| LoadPolars.CityTableIsSortedDistinct | load_db_polars.py:62-67 | the cities table is the ascending list of the distinct cities, numbered from 1, and no other table qualifies |
| LoadPandas.ImputeRow | load_db_pandas.py:25-27 | `rooms` becomes 1 for `Apartaestudio` when it is null, zero or negative; any other null becomes 0; every other `rooms` is kept; a stratum above 6 becomes 6 and any other stratum, including one below 1 or null, is kept; no other column changes |
| LoadPandas.ImputeRowIdempotent | load_db_pandas.py:25-27 | the row rules applied twice give the same row as applied once |
| LoadPandas.ImputeValues | load_db_pandas.py:25-28 | no duplicate rows, and no more rows than the input; every row has a `rooms` value and a stratum of at most 6; up to order, the output rows are exactly the imputed input rows, those with a null area included |
| LoadPandas.ImputeIdempotent | load_db_pandas.py:25-28 | running twice gives exactly the output of running once, order included |
| LoadPandas.CreateTables | load_db_pandas.py:49-66 | both dimensions hold the distinct column values without repeats, in order of first appearance, keyed 1..N; the fact table has one row per input row; each fact row carries the row's other columns, and its keys look up to the row's city and property type |
| LoadPandas.CityTableIsFirstAppearance | load_db_pandas.py:49-52 | the cities table is the list of distinct cities in order of first appearance, numbered from 1, and no other table qualifies |
| LoadPyspark.ImputeRow | load_db_pyspark.py:20-49 | the polars `rooms` rules; a non-null `stratum` is clamped into [1, 6] although the upper bound is applied first; no other column changes |
| LoadPyspark.SameRowRulesAsPolars | load_db_pyspark.py:35-49 | clamping from above and then from below gives the same row as the polars order |
| LoadPyspark.ImputeValues | load_db_pyspark.py:14-49 | the row rules applied once to each distinct input row that has an area; with both engines' deduplication modelled by the same keep-first order, it equals the polars result row for row; every output row has an area, a `rooms` value and a stratum in [1, 6] |
| Variants.RowRulesAgreeExactlyWhen | load_db_pandas.py:25-27 | the pandas and polars row rules agree on a row if and only if it is not an `Apartaestudio` with `rooms` of 0 or below, and its stratum is not below 1 |
| Variants.NullAreaKeptOnlyByPandas | load_db_pandas.py:25-28 | a row with a null area reaches the pandas output and is absent from the polars output and from the pyspark one, on a Python (3.14 or later) where that module imports |
| Variants.PolarsNumbersSorted | load_db_polars.py:62-67 | for any rows whose city column is Cali then Bogotá, polars gives Bogotá key 1 and Cali key 2 |
| Variants.PandasNumbersByFirstAppearance | load_db_pandas.py:49-52 | for the same rows, pandas gives Cali key 1 and Bogotá key 2 |
| Tables.LeftJoinDistinct | load_db_polars.py:78-79 | when the dimension values are distinct, a left join keeps one row per input row, in order, and attaches the matching key, or null when nothing matches |
| Tables.NumberedKeyRoundTrip | load_db_pandas.py:49-62 | in a dimension numbered 1..N in list order (`with_row_index(..., 1)` in polars, `np.arange(1, len(...unique())+1)` in pandas) with distinct values, the key found for a value looks back up to that value |
| Tables.BuildFactRows | load_db_polars.py:78-79 | with distinct dimension values, fact row i is input row i with its city and property-type keys attached, then projected |
| Tables.Build | load_db_pandas.py:61-62 | the joined and projected fact table has one row per input row; it keeps every column but city and property type, and its keys look up to the row's original strings |
| Lex.SortDistinct | load_db_polars.py:65-66 | `.unique().sort()`: an ascending list with exactly the input's members |
| Seqs.Dedup | load_db_pandas.py:28 | `drop_duplicates`: no repeats, the same members, no longer than the input |
| Seqs.DedupFirstAppearance | load_db_pandas.py:51 | `unique()` keeps each value's first occurrence, in order of first appearance |

## Left out

- Database and CSV I/O: `connect_to_db`, `load_to_db` and `data_load`. Their
  credentials, `DROP DATABASE` and SQL writes have no modellable logic.
- The CSV boundary between the scraper and the loaders. `Normalize.Listing`
  holds JSON leaves and `Rows.Row` holds typed columns. Parsing one into the
  other is I/O and is not modelled.
- The transport, `json.loads` and the random 5 to 10 second wait between
  attempts. A reply is a status code plus the parsed `hits.hits` value, or a
  transport failure; timing is not modelled.
- Fetcher.Reply: the `requests` exceptions that subclass `ValueError`, such
  as an invalid URL, are not told apart. Every transport failure is modelled
  as a non-`ValueError` that escapes `data_extract`.
- `create_tables` in load_db_pyspark.py. It calls `pl` (line 57), which the
  module never imports, so every call raises `NameError`. It has no working
  behaviour to model.
- LoadPyspark.ImputeValues: models lines 14-49 as they behave where the
  module imports. `DataFrame` is never imported, so on Python before 3.14
  evaluating the annotations of the `def` at line 11 raises `NameError` and
  the module cannot be imported at all. From Python 3.14 annotations are
  evaluated lazily, the module imports, and `impute_values` runs.
- Fetcher.Text: a `hits.hits` value that is present but is not a list of
  records is mapped to `None`, that is, to a malformed body. The code would
  instead append a `null` to `raw_data`, which makes `chain` raise
  `TypeError` at web_scraping_real_estate.py:117, or append an object, which
  `chain` iterates by its keys. Both end or corrupt the run; neither is
  modelled separately.
- LoadPolars.ImputeValues: `unique()` does not fix a row order. Keep-first
  deduplication is used as one possible order. The contract states the
  output as the row rules applied to some duplicate-free list of the rows
  with an area, and does not promise that order.
- LoadPyspark.ImputeValues: `dropDuplicates()` does not fix a row order
  either. The model uses the same keep-first order as the polars model, so
  its equality with the polars result holds for these two chosen orders;
  between the real engines only the multiset of rows agrees.
- LoadPolars.CreateTables: a polars `join` does not promise a row order
  without `maintain_order`. The fact table is modelled in the left table's
  row order.
- LoadPandas.ImputeValues: `fillna(0, inplace=True)` on `df['rooms']` is a
  chained assignment. It is modelled as taking effect, which it does only
  without pandas copy-on-write.
- Null `city` or `property_type` values, and where engines place nulls when
  sorting and joining. Both columns are treated as always present.
- Float prices and coordinates, the location point and the other copied
  columns are opaque values. The `rooms` and `stratum` values are integers.
- `print`, the `debug` page counter printout and the error messages.
- The Python version. The f-string at web_scraping_real_estate.py:172 nests
  single quotes inside single quotes, which parses only on Python 3.12 or
  later. The `__main__` model assumes such a Python.
- Paginate.CityInfo: `city_information` entries are assumed to carry every
  key and two coordinates. A missing key would raise before the first POST.
- Behaviours the code does not have: stopping on an empty page, skipping
  malformed records, and aborting only one city instead of the whole run.

## Behaviour worth noting

- The polars `impute_values`, and the pyspark one wherever that module
  imports (Python 3.14 or later), are not fixed points. A second run
  can remove duplicates the first run created
  (`LoadPolars.ImputeTwiceNotSameMultiset`). Only the set of rows is stable.
- The pandas `create_tables` numbers dimension values in order of first
  appearance, while the polars one numbers them in sorted order (`Variants.PandasNumbersByFirstAppearance`).
- Statuses other than 500 and 504 are not treated as errors. A 404 whose text has
  `hits.hits` counts as an answered page.
- An unmatched left join produces a null key rather than an error. Both loaders
  derive the dimensions from the same rows, so every key is found
  (`LoadPolars.CreateTables`, `LoadPandas.CreateTables`).
- A transport exception or an unreadable response text ends the whole run,
  not just one property type.

=== FILE: fetcher.dfy ===
/** `get_data` and its `@retry` decorator: one POST classified by status
    code, repeated up to three times while it raises. The network is a
    stream of replies, one per POST, in the order the POSTs are made. */
module Fetcher {
  import opened Wrappers
  import opened Normalize

  /** A response text, reduced to what `json.loads(text)['hits']['hits']`
      yields: `None` when the text is not JSON or has no such path, and also
      when the value there is not a list of records (a `null` or an object),
      so such a page counts as a malformed body. */
  datatype Text = Text(hits: Option<seq<Hit>>)

  /** What one POST brings back: a response, or a failure of the transport
      (connection refused, timeout, ...), which `requests` raises. */
  datatype Reply = Response(status: int, text: Text) | TransportFailure

  /** The exceptions a call can raise: the `ValueError` of a 500 or 504
      status, or the transport's own exception. */
  datatype Exception = ValueError(status: int) | TransportError

  datatype Outcome = Returned(status: int, text: Text) | Raised(exception: Exception)

  /** `stop_max_attempt_number`. */
  const MaxAttempts: nat := 3

  predicate ServerError(status: int) {
    status == 500 || status == 504
  }

  /** One undecorated call of `get_data`: statuses 500 and 504 raise a
      `ValueError`; every other status, 4xx included, is returned. */
  function GetData(reply: Reply): (o: Outcome)
    ensures o.Raised? <==> reply.TransportFailure? || ServerError(reply.status)
    ensures o.Returned? ==> reply == Response(o.status, o.text)
    ensures reply.Response? && o.Raised? ==> o.exception == ValueError(reply.status)
    ensures reply.TransportFailure? ==> o == Raised(TransportError)
  {
    match reply
    case TransportFailure => Raised(TransportError)
    case Response(status, text) =>
      if status == 504 then Raised(ValueError(504))
      else if status == 500 then Raised(ValueError(500))
      else Returned(status, text)
  }

  /** A decorated call that has made `attempts` POSTs and ended with
      `outcome`, or one whose stream ran out before it ended. */
  datatype Retried = Retried(outcome: Outcome, attempts: nat) | Pending

  /** The decorated call from attempt number `attempt` on. Any exception is
      retried; after the last attempt its exception is raised again. */
  function RetryFrom(replies: seq<Reply>, attempt: nat): (r: Retried)
    requires 1 <= attempt <= MaxAttempts
    ensures r.Retried? ==> 1 <= r.attempts <= MaxAttempts - attempt + 1 && r.attempts <= |replies|
    ensures r.Retried? ==> r.outcome == GetData(replies[r.attempts - 1])
    ensures r.Retried? ==> forall k :: 0 <= k < r.attempts - 1 ==> GetData(replies[k]).Raised?
    ensures r.Retried? && r.outcome.Raised? ==> r.attempts == MaxAttempts - attempt + 1
    ensures r.Pending? <==>
              |replies| <= MaxAttempts - attempt && forall k :: 0 <= k < |replies| ==> GetData(replies[k]).Raised?
    decreases |replies|
  {
    if |replies| == 0 then Pending
    else
      var o := GetData(replies[0]);
      if o.Returned? || attempt == MaxAttempts then Retried(o, 1)
      else
        match RetryFrom(replies[1..], attempt + 1)
        case Pending => Pending
        case Retried(last, n) => Retried(last, n + 1)
  }

  /** `get_data` as decorated: at most three POSTs; the first answer that
      does not raise is returned, and if all three raise, the third one's
      exception propagates. */
  function Retry(replies: seq<Reply>): (r: Retried)
    ensures r.Retried? ==> 1 <= r.attempts <= MaxAttempts && r.attempts <= |replies|
    ensures r.Retried? ==> r.outcome == GetData(replies[r.attempts - 1])
    ensures r.Retried? ==> forall k :: 0 <= k < r.attempts - 1 ==> GetData(replies[k]).Raised?
    ensures r.Retried? && r.outcome.Raised? ==> r.attempts == MaxAttempts
    ensures r.Pending? <==>
              |replies| < MaxAttempts && forall k :: 0 <= k < |replies| ==> GetData(replies[k]).Raised?
  {
    RetryFrom(replies, 1)
  }

  /** A call that ends by raising used all three attempts, and each of them
      raised. */
  lemma RetryRaisedAll(replies: seq<Reply>)
    requires Retry(replies).Retried? && Retry(replies).outcome.Raised?
    ensures Retry(replies).attempts == MaxAttempts
    ensures forall k :: 0 <= k < MaxAttempts ==> GetData(replies[k]).Raised?
  {
  }

  /** A call that is answered after fewer than three raising replies returns
      that answer and uses exactly those replies. */
  lemma RetryAnswered(failures: seq<Reply>, answer: Reply, rest: seq<Reply>)
    requires |failures| < MaxAttempts
    requires forall k :: 0 <= k < |failures| ==> GetData(failures[k]).Raised?
    requires GetData(answer).Returned?
    ensures Retry(failures + [answer] + rest) == Retried(GetData(answer), |failures| + 1)
  {
    var replies := failures + [answer] + rest;
    var r := Retry(replies);
    assert replies[|failures|] == answer;
    assert forall k :: 0 <= k < |failures| ==> replies[k] == failures[k];
  }

  /** Three raising replies in a row exhaust the call, whatever follows,
      and the third one's exception is raised. */
  lemma RetryExhausted(tries: seq<Reply>, rest: seq<Reply>)
    requires |tries| == MaxAttempts
    requires forall k :: 0 <= k < |tries| ==> GetData(tries[k]).Raised?
    ensures Retry(tries + rest) == Retried(GetData(tries[MaxAttempts - 1]), MaxAttempts)
  {
    var replies := tries + rest;
    assert forall k :: 0 <= k < |tries| ==> replies[k] == tries[k];
  }

  /** A finished call gives the same result on any prefix of the stream
      that still holds the replies it used. */
  lemma RetryTruncate(replies: seq<Reply>, m: nat)
    requires Retry(replies).Retried? && Retry(replies).attempts <= m <= |replies|
    ensures Retry(replies[..m]) == Retry(replies)
  {
    var r := Retry(replies);
    var a := r.attempts;
    var prefix := replies[..m];
    if r.outcome.Returned? {
      assert prefix == replies[..a - 1] + [replies[a - 1]] + replies[a..m];
      RetryAnswered(replies[..a - 1], replies[a - 1], replies[a..m]);
    } else {
      RetryRaisedAll(replies);
      assert prefix == replies[..MaxAttempts] + replies[MaxAttempts..m];
      RetryExhausted(replies[..MaxAttempts], replies[MaxAttempts..m]);
    }
  }

  /** A finished call depends only on the replies it used: more replies
      after them change nothing. */
  lemma RetryExtends(replies: seq<Reply>, more: seq<Reply>)
    requires Retry(replies).Retried?
    ensures Retry(replies + more) == Retry(replies)
  {
    var r := Retry(replies);
    var longer := replies + more;
    assert forall k :: 0 <= k < |replies| ==> longer[k] == replies[k];
  }
}

=== FILE: lex.dfy ===
/** The order a string column is sorted in: lexicographic by code point
    (UTF-8 byte order gives the same result), a proper prefix first. */
module Lex {
  import opened Seqs

  predicate Less(a: string, b: string) {
    if |a| == 0 then |b| > 0
    else if |b| == 0 then false
    else if a[0] != b[0] then a[0] < b[0]
    else Less(a[1..], b[1..])
  }

  lemma {:induction false} LessIrreflexive(a: string)
    ensures !Less(a, a)
  {
    if |a| > 0 {
      LessIrreflexive(a[1..]);
    }
  }

  lemma {:induction false} LessTransitive(a: string, b: string, c: string)
    requires Less(a, b) && Less(b, c)
    ensures Less(a, c)
  {
    if |a| > 0 && |b| > 0 && |c| > 0 && a[0] == b[0] && b[0] == c[0] {
      LessTransitive(a[1..], b[1..], c[1..]);
    }
  }

  lemma {:induction false} LessTotal(a: string, b: string)
    requires a != b
    ensures Less(a, b) || Less(b, a)
  {
    if |a| > 0 && |b| > 0 && a[0] == b[0] {
      assert a == [a[0]] + a[1..] && b == [b[0]] + b[1..];
      LessTotal(a[1..], b[1..]);
    }
  }

  lemma LessAsymmetric(a: string, b: string)
    requires Less(a, b)
    ensures !Less(b, a)
  {
    if Less(b, a) {
      LessTransitive(a, b, a);
      LessIrreflexive(a);
    }
  }

  /** Strictly increasing, hence without duplicates. */
  predicate Ascending(s: seq<string>) {
    forall i, j :: 0 <= i < j < |s| ==> Less(s[i], s[j])
  }

  lemma AscendingNoDup(s: seq<string>)
    requires Ascending(s)
    ensures NoDup(s)
  {
    forall i, j | 0 <= i < j < |s|
      ensures s[i] != s[j]
    {
      LessIrreflexive(s[i]);
    }
  }

  /** Adds `x` to an ascending sequence unless it is already there. */
  function Insert(x: string, s: seq<string>): (r: seq<string>)
    requires Ascending(s)
    ensures Ascending(r)
    ensures forall y :: y in r <==> y in s || y == x
  {
    if |s| == 0 then [x]
    else if x == s[0] then s
    else if Less(x, s[0]) then
      assert forall j :: 0 < j < |s| ==> Less(x, s[j]) by {
        forall j | 0 < j < |s|
          ensures Less(x, s[j])
        {
          LessTransitive(x, s[0], s[j]);
        }
      }
      [x] + s
    else
      var rest := Insert(x, s[1..]);
      assert Less(s[0], x) by {
        LessTotal(x, s[0]);
      }
      assert forall y :: y in rest ==> Less(s[0], y);
      [s[0]] + rest
  }

  /** The distinct values of `s` in ascending order. */
  function SortDistinct(s: seq<string>): (r: seq<string>)
    ensures Ascending(r)
    ensures forall y :: y in r <==> y in s
  {
    if |s| == 0 then []
    else Insert(s[0], SortDistinct(s[1..]))
  }

  /** At most one ascending sequence holds a given set of values, so the
      result of SortDistinct is determined by the values alone. */
  lemma {:induction false} AscendingUnique(a: seq<string>, b: seq<string>)
    requires Ascending(a) && Ascending(b)
    requires forall y :: y in a <==> y in b
    ensures a == b
  {
    if |a| == 0 {
      HeadIn(b);
    } else {
      assert a[0] in b;
      assert b != [];
      if a[0] != b[0] {
        assert b[0] in b;
        var k :| 0 <= k < |b| && b[k] == a[0];
        var m :| 0 <= m < |a| && a[m] == b[0];
        assert Less(b[0], a[0]);
        assert Less(a[0], b[0]);
        LessAsymmetric(a[0], b[0]);
      }
      forall y
        ensures y in a[1..] <==> y in b[1..]
      {
        if y in a[1..] {
          var i :| 1 <= i < |a| && a[i] == y;
          LessIrreflexive(y);
          assert y != a[0];
          assert y in b;
        }
        if y in b[1..] {
          var i :| 1 <= i < |b| && b[i] == y;
          LessIrreflexive(y);
          assert y != b[0];
          assert y in a;
        }
      }
      AscendingUnique(a[1..], b[1..]);
      assert a == [a[0]] + a[1..] && b == [b[0]] + b[1..];
    }
  }
}

=== FILE: load_pandas.dfy ===
/** The pandas loader: `impute_values` (fill `rooms`, cap `stratum`, then
    deduplicate; null areas are kept) and `create_tables` (dimensions
    numbered in order of first appearance). */
module LoadPandas {
  import opened Wrappers
  import opened Seqs
  import opened Rows
  import opened Tables

  /** `rooms > 0`; a null compares false. */
  predicate Positive(rooms: Option<int>) {
    rooms.Some? && rooms.value > 0
  }

  /** A studio apartment whose `rooms` is not positive (null, zero or
      negative) gets 1. */
  function StudioRooms(r: Row): Row {
    if !Positive(r.rooms) && r.propertyType == Apartaestudio then r.(rooms := Some(1)) else r
  }

  /** `fillna(0)` on `rooms`. */
  function FillNullRooms(r: Row): Row {
    if r.rooms.None? then r.(rooms := Some(0)) else r
  }

  /** A stratum above 6 becomes 6; there is no lower bound, and a null
      compares false and is kept. */
  function CapStratum(r: Row): Row {
    if r.stratum.Some? && r.stratum.value > MaxStratum then r.(stratum := Some(MaxStratum)) else r
  }

  /** The per-row rules of `impute_values`. */
  function ImputeRow(r: Row): (o: Row)
    ensures r.propertyType == Apartaestudio && !Positive(r.rooms) ==> o.rooms == Some(1)
    ensures r.propertyType != Apartaestudio && r.rooms.None? ==> o.rooms == Some(0)
    ensures r.rooms.Some? && (r.propertyType != Apartaestudio || r.rooms.value > 0) ==> o.rooms == r.rooms
    ensures r.stratum.Some? && r.stratum.value > MaxStratum ==> o.stratum == Some(MaxStratum)
    ensures !(r.stratum.Some? && r.stratum.value > MaxStratum) ==> o.stratum == r.stratum
    ensures OnlyRoomsAndStratumChanged(r, o)
  {
    CapStratum(FillNullRooms(StudioRooms(r)))
  }

  lemma ImputeRowIdempotent(r: Row)
    ensures ImputeRow(ImputeRow(r)) == ImputeRow(r)
  {
  }

  /** `impute_values`: apply the row rules, then drop duplicates keeping the
      first copy. The output has no duplicates and is, up to order, the set
      of imputed input rows; rows with a null area are kept. */
  function ImputeValues(rows: seq<Row>): (out: seq<Row>)
    ensures |out| <= |rows|
    ensures NoDup(out)
    ensures forall o :: o in out ==> o.rooms.Some? && (o.stratum.Some? ==> o.stratum.value <= MaxStratum)
    ensures forall o :: o in out ==> exists r :: r in rows && o == ImputeRow(r)
    ensures forall r :: r in rows ==> ImputeRow(r) in out
  {
    var imputed := Map(rows, ImputeRow);
    MapImage(rows, ImputeRow);
    Dedup(imputed)
  }

  /** Because deduplication comes last, `impute_values` is idempotent,
      row order included. */
  lemma {:induction false} ImputeIdempotent(rows: seq<Row>)
    ensures ImputeValues(ImputeValues(rows)) == ImputeValues(rows)
  {
    var once := ImputeValues(rows);
    forall i | 0 <= i < |once|
      ensures ImputeRow(once[i]) == once[i]
    {
      assert once[i] in once;
      var r :| r in rows && once[i] == ImputeRow(r);
      ImputeRowIdempotent(r);
    }
    assert Map(once, ImputeRow) == once;
    DedupOfNoDup(once);
  }

  /** `create_tables`: the cities and property-type tables hold the distinct
      values in order of first appearance with keys 1..N, and the fact table
      keeps one row per input row, with keys that lead back to the row's values. */
  function CreateTables(rows: seq<Row>): (t: Tables)
    ensures Consecutive(t.cities) && Consecutive(t.propertyTypes)
    ensures NoDup(Names(t.cities)) && NoDup(Names(t.propertyTypes))
    ensures forall c :: c in Names(t.cities) <==> c in CityColumn(rows)
    ensures forall p :: p in Names(t.propertyTypes) <==> p in PropertyTypeColumn(rows)
    ensures InFirstAppearanceOrder(CityColumn(rows), Names(t.cities))
    ensures InFirstAppearanceOrder(PropertyTypeColumn(rows), Names(t.propertyTypes))
    ensures |t.fact| == |rows|
    ensures forall i :: 0 <= i < |rows| ==>
              && Carries(t.fact[i], rows[i])
              && KeyFor(t.cities, t.fact[i].cityId, rows[i].city)
              && KeyFor(t.propertyTypes, t.fact[i].propertyTypeId, rows[i].propertyType)
  {
    var cityNames := Dedup(CityColumn(rows));
    var typeNames := Dedup(PropertyTypeColumn(rows));
    DedupFirstAppearance(CityColumn(rows));
    DedupFirstAppearance(PropertyTypeColumn(rows));
    assert forall r :: r in rows ==> r.city in cityNames && r.propertyType in typeNames by {
      forall r | r in rows
        ensures r.city in cityNames && r.propertyType in typeNames
      {
        MapMembership(rows, (r: Row) => r.city, r.city);
        MapMembership(rows, (r: Row) => r.propertyType, r.propertyType);
      }
    }
    Build(rows, cityNames, typeNames)
  }

  /** The cities table is fully determined: any list of exactly the distinct
      city values in order of first appearance is its value column. */
  lemma CityTableIsFirstAppearance(rows: seq<Row>, names: seq<string>)
    requires InFirstAppearanceOrder(CityColumn(rows), names)
    requires forall c :: c in names <==> c in CityColumn(rows)
    ensures CreateTables(rows).cities == Number(names)
  {
    var t := CreateTables(rows);
    FirstAppearanceUnique(CityColumn(rows), Names(t.cities), names);
    assert |t.cities| == |names|;
    forall i | 0 <= i < |names|
      ensures t.cities[i] == Number(names)[i]
    {
      assert Names(t.cities)[i] == t.cities[i].name;
    }
  }
}

=== FILE: load_polars.dfy ===
/** The polars loader: `impute_values` (deduplicate, drop rows without an
    area, fill `rooms`, clamp `stratum`) and `create_tables` (dimensions
    numbered in sorted order). */
module LoadPolars {
  import opened Wrappers
  import opened Seqs
  import opened Rows
  import opened Lex
  import opened Tables

  predicate HasArea(r: Row) {
    r.area.Some?
  }

  /** The two `rooms` steps: a null for a studio apartment becomes 1, then
      any null left becomes 0. */
  function FillRooms(r: Row): Row {
    var studio := if r.rooms.None? && r.propertyType == Apartaestudio then r.(rooms := Some(1)) else r;
    if studio.rooms.None? then studio.(rooms := Some(0)) else studio
  }

  /** The two `stratum` steps: below 1 becomes 1, then above 6 becomes 6.
      A null compares as null and is kept. */
  function ClampStratum(r: Row): Row {
    var low := if r.stratum.Some? && r.stratum.value < MinStratum then r.(stratum := Some(MinStratum)) else r;
    if low.stratum.Some? && low.stratum.value > MaxStratum then low.(stratum := Some(MaxStratum)) else low
  }

  /** The per-row rules of `impute_values`. */
  function ImputeRow(r: Row): (o: Row)
    ensures r.rooms.None? && r.propertyType == Apartaestudio ==> o.rooms == Some(1)
    ensures r.rooms.None? && r.propertyType != Apartaestudio ==> o.rooms == Some(0)
    ensures r.rooms.Some? ==> o.rooms == r.rooms
    ensures r.stratum.None? ==> o.stratum.None?
    ensures r.stratum.Some? ==> o.stratum == Some(Clamp(r.stratum.value, MinStratum, MaxStratum))
    ensures OnlyRoomsAndStratumChanged(r, o)
  {
    ClampStratum(FillRooms(r))
  }

  /** Each distinct input row that has an area, exactly once, in some order. */
  ghost predicate DistinctWithArea(d: seq<Row>, rows: seq<Row>) {
    NoDup(d) && forall x :: x in d <==> x in rows && x.area.Some?
  }

  /** `impute_values`: deduplicate, drop null areas, then apply the row rules.
      The row rules run on the distinct rows that have an area, one output row
      each; two distinct rows may still become equal rows. */
  function ImputeValues(rows: seq<Row>): (out: seq<Row>)
    ensures |out| <= |rows|
    ensures exists d :: DistinctWithArea(d, rows) && out == Map(d, ImputeRow)
    ensures forall o :: o in out ==> o.area.Some? && o.rooms.Some? && StratumInRange(o)
    ensures forall o :: o in out ==> exists r :: r in rows && r.area.Some? && o == ImputeRow(r)
    ensures forall r :: r in rows && r.area.Some? ==> ImputeRow(r) in out
  {
    var present := Filter(Dedup(rows), HasArea);
    FilterNoDup(Dedup(rows), HasArea);
    assert DistinctWithArea(present, rows);
    var out := Map(present, ImputeRow);
    MapImage(present, ImputeRow);
    out
  }

  lemma ImputeRowIdempotent(r: Row)
    ensures ImputeRow(ImputeRow(r)) == ImputeRow(r)
  {
  }

  /** A row of the output is a fixed point of the row rules and has an area,
      so it survives a second run. */
  lemma FixedRowSurvives(rows: seq<Row>, o: Row)
    requires o in rows && o.area.Some? && ImputeRow(o) == o
    ensures o in ImputeValues(rows)
  {
  }

  lemma ImputeTwiceKeepsRows(rows: seq<Row>)
    ensures forall o :: o in ImputeValues(rows) ==> o in ImputeValues(ImputeValues(rows))
  {
    var once := ImputeValues(rows);
    forall o | o in once
      ensures o in ImputeValues(once)
    {
      var r0 :| r0 in rows && r0.area.Some? && o == ImputeRow(r0);
      ImputeRowIdempotent(r0);
      FixedRowSurvives(once, o);
    }
  }

  lemma ImputeTwiceAddsNothing(rows: seq<Row>)
    ensures forall o :: o in ImputeValues(ImputeValues(rows)) ==> o in ImputeValues(rows)
  {
    var once := ImputeValues(rows);
    forall o | o in ImputeValues(once)
      ensures o in once
    {
      var r :| r in once && r.area.Some? && o == ImputeRow(r);
      var r0 :| r0 in rows && r0.area.Some? && r == ImputeRow(r0);
      ImputeRowIdempotent(r0);
    }
  }

  /** Running `impute_values` on its own output gives back the same set of rows. */
  lemma ImputeTwiceSameRows(rows: seq<Row>)
    ensures forall o :: o in ImputeValues(ImputeValues(rows)) <==> o in ImputeValues(rows)
  {
    ImputeTwiceKeepsRows(rows);
    ImputeTwiceAddsNothing(rows);
  }

  /** A listing with the given stratum, used to show duplicates surviving imputation. */
  function Sample(stratum: int): Row {
    Row(Cell("id-1"), Cell("350000000"), Some(Cell("60")), Some(3), Cell("2"), Cell("1"),
        "Apartamento", Some(stratum), Cell("point"), "Cali")
  }

  /** A sample listing with a stratum above 6 is imputed to stratum 6. */
  lemma SampleClamped(stratum: int)
    requires stratum > MaxStratum
    ensures ImputeRow(Sample(stratum)) == Sample(MaxStratum)
  {
  }

  /** On distinct rows that all have an area, the output is every row
      imputed, in order. */
  lemma ImputeDistinctRows(rows: seq<Row>)
    requires NoDup(rows) && forall r :: r in rows ==> r.area.Some?
    ensures ImputeValues(rows) == Map(rows, ImputeRow)
  {
    DedupOfNoDup(rows);
    FilterAll(rows, HasArea);
  }

  /** Two different rows that both have an area are each imputed, in order. */
  lemma ImputePair(a: Row, b: Row)
    requires a != b && a.area.Some? && b.area.Some?
    ensures ImputeValues([a, b]) == [ImputeRow(a), ImputeRow(b)]
  {
    NoDupPair(a, b);
    ImputeDistinctRows([a, b]);
    MapPair(a, b, ImputeRow);
  }

  /** Deduplication runs before the clamp, so two rows differing only in
      their strata, both above 6, both become stratum 6 and the output holds
      a duplicate. */
  lemma ImputeOnceKeepsDuplicate(high: int, higher: int)
    requires MaxStratum < high < higher
    ensures ImputeValues([Sample(high), Sample(higher)]) == [Sample(MaxStratum), Sample(MaxStratum)]
  {
    assert Sample(high).stratum != Sample(higher).stratum;
    ImputePair(Sample(high), Sample(higher));
    SampleClamped(high);
    SampleClamped(higher);
  }

  /** A second run removes that duplicate. */
  lemma ImputeAgainRemovesDuplicate()
    ensures ImputeValues([Sample(6), Sample(6)]) == [Sample(6)]
  {
    var once := [Sample(6), Sample(6)];
    assert once[..1] == [Sample(6)];
    assert Dedup([Sample(6)]) == [Sample(6)];
    assert Dedup(once) == [Sample(6)];
    assert Filter([Sample(6)], HasArea) == [Sample(6)];
    assert Map([Sample(6)], ImputeRow) == [Sample(6)];
  }

  /** Twice-imputed equals once-imputed as a set of rows, not as a multiset. */
  lemma ImputeTwiceNotSameMultiset()
    ensures multiset(ImputeValues(ImputeValues([Sample(7), Sample(8)])))
            != multiset(ImputeValues([Sample(7), Sample(8)]))
  {
    ImputeOnceKeepsDuplicate(7, 8);
    ImputeAgainRemovesDuplicate();
    assert multiset([Sample(6), Sample(6)])[Sample(6)] == 2;
    assert multiset([Sample(6)])[Sample(6)] == 1;
  }

  /** `create_tables`: the cities and property-type tables hold the distinct
      values in ascending order with keys 1..N, and the fact table keeps one
      row per input row, with keys that lead back to the row's values. */
  function CreateTables(rows: seq<Row>): (t: Tables)
    ensures Consecutive(t.cities) && Consecutive(t.propertyTypes)
    ensures Ascending(Names(t.cities)) && Ascending(Names(t.propertyTypes))
    ensures forall c :: c in Names(t.cities) <==> c in CityColumn(rows)
    ensures forall p :: p in Names(t.propertyTypes) <==> p in PropertyTypeColumn(rows)
    ensures |t.fact| == |rows|
    ensures forall i :: 0 <= i < |rows| ==>
              && Carries(t.fact[i], rows[i])
              && KeyFor(t.cities, t.fact[i].cityId, rows[i].city)
              && KeyFor(t.propertyTypes, t.fact[i].propertyTypeId, rows[i].propertyType)
  {
    var cityNames := SortDistinct(CityColumn(rows));
    var typeNames := SortDistinct(PropertyTypeColumn(rows));
    AscendingNoDup(cityNames);
    AscendingNoDup(typeNames);
    assert forall r :: r in rows ==> r.city in cityNames && r.propertyType in typeNames by {
      forall r | r in rows
        ensures r.city in cityNames && r.propertyType in typeNames
      {
        MapMembership(rows, (r: Row) => r.city, r.city);
        MapMembership(rows, (r: Row) => r.propertyType, r.propertyType);
      }
    }
    Build(rows, cityNames, typeNames)
  }

  /** The cities table is fully determined: any ascending list of exactly the
      distinct city values is its value column. */
  lemma CityTableIsSortedDistinct(rows: seq<Row>, names: seq<string>)
    requires Ascending(names)
    requires forall c :: c in names <==> c in CityColumn(rows)
    ensures CreateTables(rows).cities == Number(names)
  {
    var t := CreateTables(rows);
    AscendingUnique(Names(t.cities), names);
    assert |t.cities| == |names|;
    forall i | 0 <= i < |names|
      ensures t.cities[i] == Number(names)[i]
    {
      assert Names(t.cities)[i] == t.cities[i].name;
    }
  }
}

=== FILE: load_pyspark.dfy ===
/** The pyspark loader's `impute_values`: the polars rules with the two
    `stratum` steps in the opposite order. Its module names `DataFrame`
    without importing it, so this is its behaviour on Python 3.14 or later,
    where annotations are evaluated lazily; earlier versions cannot import
    the module. */
module LoadPyspark {
  import opened Wrappers
  import opened Seqs
  import opened Rows
  import LoadPolars

  /** The two `stratum` steps: above 6 becomes 6, then below 1 becomes 1.
      A null is kept. */
  function ClampStratum(r: Row): Row {
    var high := if r.stratum.Some? && r.stratum.value > MaxStratum then r.(stratum := Some(MaxStratum)) else r;
    if high.stratum.Some? && high.stratum.value < MinStratum then high.(stratum := Some(MinStratum)) else high
  }

  /** The per-row rules: the `rooms` steps are those of the polars loader. */
  function ImputeRow(r: Row): (o: Row)
    ensures r.stratum.None? ==> o.stratum.None?
    ensures r.stratum.Some? ==> o.stratum == Some(Clamp(r.stratum.value, MinStratum, MaxStratum))
    ensures OnlyRoomsAndStratumChanged(r, o)
  {
    ClampStratum(LoadPolars.FillRooms(r))
  }

  /** Clamping from above first gives the same row as clamping from below first. */
  lemma SameRowRulesAsPolars(r: Row)
    ensures ImputeRow(r) == LoadPolars.ImputeRow(r)
  {
  }

  /** `impute_values`: drop duplicates, keep rows with an area, apply the row
      rules, once per distinct row with an area. With both engines' unordered
      deduplication modelled as keep-first, it equals the polars result. */
  function ImputeValues(rows: seq<Row>): (out: seq<Row>)
    ensures out == LoadPolars.ImputeValues(rows)
    ensures exists d :: LoadPolars.DistinctWithArea(d, rows) && out == Map(d, ImputeRow)
    ensures forall o :: o in out ==> o.area.Some? && o.rooms.Some? && StratumInRange(o)
    ensures forall o :: o in out ==> exists r :: r in rows && r.area.Some? && o == ImputeRow(r)
    ensures forall r :: r in rows && r.area.Some? ==> ImputeRow(r) in out
  {
    var present := Filter(Dedup(rows), LoadPolars.HasArea);
    var out := Map(present, ImputeRow);
    assert out == LoadPolars.ImputeValues(rows) by {
      forall i | 0 <= i < |present|
        ensures out[i] == LoadPolars.ImputeRow(present[i])
      {
        SameRowRulesAsPolars(present[i]);
      }
    }
    FilterNoDup(Dedup(rows), LoadPolars.HasArea);
    assert LoadPolars.DistinctWithArea(present, rows);
    assert forall r :: ImputeRow(r) == LoadPolars.ImputeRow(r) by {
      forall r {
        SameRowRulesAsPolars(r);
      }
    }
    out
  }
}

=== FILE: normalize.dfy ===
/** `data_transform`: the fixed-path extraction of one raw search hit into a
    flat listing of ten fields. */
module Normalize {
  import opened Wrappers

  /** A JSON leaf, carried as its literal text; `Null` is JSON null. */
  datatype Json = Null | Literal(text: string)

  /** A raw hit `{"_source": {"listing": {...}}}`. At every level `None`
      stands for a key that is absent or for a value that cannot be indexed
      that way (null, say); both make the lookup raise. */
  datatype Hit = Hit(source: Option<Source>)

  datatype Source = Source(listing: Option<RawListing>)

  /** The listing object, restricted to the keys the extraction reads. */
  datatype RawListing = RawListing(
    id: Option<Json>,
    price: Option<Amount>,
    m2: Option<Json>,
    technicalSheet: Option<seq<SheetEntry>>,
    bathrooms: Option<Json>,
    garage: Option<Json>,
    propertyType: Option<Named>,
    stratum: Option<Json>,
    locations: Option<Locations>)

  datatype Amount = Amount(amount: Option<Json>)

  datatype SheetEntry = SheetEntry(value: Option<Json>)

  datatype Named = Named(name: Option<Json>)

  datatype Locations = Locations(locationPoint: Option<Json>, city: Option<seq<Named>>)

  /** The ten fields of a cleaned listing. */
  datatype Field = Id | Price | Area | Rooms | Bathrooms | Garage | PropertyType | Stratum | Location | City

  /** The position of a field among the extraction's statements. */
  function Position(f: Field): nat {
    match f
    case Id => 0
    case Price => 1
    case Area => 2
    case Rooms => 3
    case Bathrooms => 4
    case Garage => 5
    case PropertyType => 6
    case Stratum => 7
    case Location => 8
    case City => 9
  }

  /** The entry of `technicalSheet` read as the room count. */
  const RoomsSheetIndex: nat := 7

  /** A cleaned listing: the ten values, as the CSV file receives them. */
  datatype Listing = Listing(
    id: Json,
    price: Json,
    area: Json,
    rooms: Json,
    bathrooms: Json,
    garage: Json,
    propertyType: Json,
    stratum: Json,
    location: Json,
    city: Json)

  function Get(l: Listing, f: Field): Json {
    match f
    case Id => l.id
    case Price => l.price
    case Area => l.area
    case Rooms => l.rooms
    case Bathrooms => l.bathrooms
    case Garage => l.garage
    case PropertyType => l.propertyType
    case Stratum => l.stratum
    case Location => l.location
    case City => l.city
  }

  /** The value at the path of `f` inside the listing object, or None when
      a step is missing: `id`, `price.amount`, `m2`, `technicalSheet[7].value`,
      `bathrooms`, `garage`, `property_type.name`, `stratum`,
      `locations.location_point` or `locations.city[0].name`. */
  function FieldValue(l: RawListing, f: Field): Option<Json> {
    match f
    case Id => l.id
    case Price => if l.price.Some? then l.price.value.amount else None
    case Area => l.m2
    case Rooms =>
      if l.technicalSheet.Some? && RoomsSheetIndex < |l.technicalSheet.value|
      then l.technicalSheet.value[RoomsSheetIndex].value
      else None
    case Bathrooms => l.bathrooms
    case Garage => l.garage
    case PropertyType => if l.propertyType.Some? then l.propertyType.value.name else None
    case Stratum => l.stratum
    case Location => if l.locations.Some? then l.locations.value.locationPoint else None
    case City =>
      if l.locations.Some? && l.locations.value.city.Some? && 0 < |l.locations.value.city.value|
      then l.locations.value.city.value[0].name
      else None
  }

  /** The value at the full path `_source.listing...` of `f`, or None. */
  function PathValue(h: Hit, f: Field): Option<Json> {
    if h.source.None? || h.source.value.listing.None? then None
    else FieldValue(h.source.value.listing.value, f)
  }

  /** One statement of the extraction: the value at the path of `f`, or
      the failure of that statement. */
  function Read(l: RawListing, f: Field): (r: Result<Json, Field>)
    ensures r.Success? <==> FieldValue(l, f).Some?
    ensures r.Success? ==> FieldValue(l, f) == Some(r.value)
    ensures r.Failure? ==> r.error == f
  {
    match FieldValue(l, f)
    case Some(v) => Success(v)
    case None => Failure(f)
  }

  /** The ten statements after `_source.listing` has been read, in order. */
  function ReadFields(l: RawListing): (r: Result<Listing, Field>)
    ensures r.Failure? ==> FieldValue(l, r.error).None?
    ensures r.Success? ==> forall f :: FieldValue(l, f) == Some(Get(r.value, f))
    ensures r.Success? <==> forall f :: FieldValue(l, f).Some?
    ensures r.Failure? ==> forall f :: Position(f) < Position(r.error) ==> FieldValue(l, f).Some?
  {
    var id :- Read(l, Id);
    var price :- Read(l, Price);
    var area :- Read(l, Area);
    var rooms :- Read(l, Rooms);
    var bathrooms :- Read(l, Bathrooms);
    var garage :- Read(l, Garage);
    var propertyType :- Read(l, PropertyType);
    var stratum :- Read(l, Stratum);
    var location :- Read(l, Location);
    var city :- Read(l, City);
    Success(Listing(id, price, area, rooms, bathrooms, garage, propertyType, stratum, location, city))
  }

  /** `data_transform`. It succeeds exactly when all ten paths are present,
      and then each field holds the value at its path; otherwise it fails at
      the first statement, in source order, whose path is missing. */
  function DataTransform(h: Hit): (r: Result<Listing, Field>)
    ensures r.Failure? ==> PathValue(h, r.error).None?
    ensures r.Success? ==> forall f :: PathValue(h, f) == Some(Get(r.value, f))
    ensures r.Success? <==> forall f :: PathValue(h, f).Some?
    ensures r.Failure? ==> forall f :: Position(f) < Position(r.error) ==> PathValue(h, f).Some?
  {
    var source :- h.source.ToResult(Id);
    var l :- source.listing.ToResult(Id);
    ReadFields(l)
  }

  /** The room count is the eighth technical-sheet entry and the city is the
      first entry of the city list. */
  lemma RoomsAndCityPaths(h: Hit)
    requires DataTransform(h).Success?
    ensures h.source.Some? && h.source.value.listing.Some?
    ensures var l := h.source.value.listing.value;
            && l.technicalSheet.Some? && RoomsSheetIndex < |l.technicalSheet.value|
            && Some(DataTransform(h).value.rooms) == l.technicalSheet.value[7].value
            && l.locations.Some? && l.locations.value.city.Some? && 0 < |l.locations.value.city.value|
            && Some(DataTransform(h).value.city) == l.locations.value.city.value[0].name
  {
    assert PathValue(h, Rooms).Some? && PathValue(h, City).Some?;
  }
}

=== FILE: paginate.dfy ===
/** `data_extract`: for each property type, request pages 1, 2, 3, ... of
    one city's search until a page's call raises a `ValueError`; return the
    hits of every answered page, in order. */
module Paginate {
  import opened Seqs
  import opened Normalize
  import opened Fetcher

  /** The entry of `city_information` the request reads. The coordinates
      are opaque numbers. */
  datatype CityInfo = CityInfo(
    city: string,
    id: string,
    slug: string,
    estateName: string,
    estateId: string,
    estateSlug: string,
    /** The entry's `label` key, sent as the location's `label` (`label`
        is a keyword of Dafny). */
    markup: string,
    longitude: string,
    latitude: string)

  /** The request payload: `variables.rows`, `variables.page`,
      `variables.params.page`, the fixed `order`, `operation_type_id`,
      `source` and `query`, the property types and the one location. */
  datatype Request = Request(
    rows: nat,
    page: nat,
    paramsPage: nat,
    order: int,
    operationTypeId: int,
    propertyTypeIds: seq<int>,
    location: CityInfo,
    source: int,
    query: string)

  /** `rows`: listings per page. */
  const PageSize: nat := 21

  /** The payload for one page of one property type in one city: the page
      number appears twice, and the property-type list has one entry. */
  function BuildRequest(city: CityInfo, propertyType: int, page: nat): (q: Request)
    ensures q.rows == PageSize && q.page == page && q.paramsPage == page
    ensures q.propertyTypeIds == [propertyType] && q.location == city
  {
    Request(PageSize, page, page, 2, 1, [propertyType], city, 10, "")
  }

  /** Two payloads are equal exactly when city, property type and page are. */
  lemma RequestsDistinguishPages(c: CityInfo, t: int, p: nat, c': CityInfo, t': int, p': nat)
    ensures BuildRequest(c, t, p) == BuildRequest(c', t', p') <==> c == c' && t == t' && p == p'
  {
    if BuildRequest(c, t, p) == BuildRequest(c', t', p') {
      assert BuildRequest(c, t, p).propertyTypeIds[0] == t;
    }
  }

  /** How a run ends other than normally: an exception that is not a
      `ValueError` escaping `get_data`, a response text whose
      `['hits']['hits']` raises, the unbound `raw_data2` of an empty
      property-type list, or (in `__main__`) a record `data_transform`
      cannot read. */
  datatype Crash =
    | Uncaught(exception: Exception)
    | MalformedBody
    | UnboundRawData
    | MalformedRecord(index: nat, field: Field)

  /** A run that returned `value` after using the first `consumed` replies,
      one that raised, or one whose stream ran out first. */
  datatype Progress<T> = Done(value: T, consumed: nat) | Crashed(crash: Crash) | Unfinished

  /** The answered pages of one property type, and the payload of each call
      made, the last one being the call whose retries ran out. */
  datatype PageRun = PageRun(pages: seq<seq<Hit>>, requests: seq<Request>)

  /** The call's outcome is one `get_data` lets escape: the transport's own
      exception after the last attempt, or an answer whose text has no
      readable `hits.hits`. Only a `ValueError` is caught. */
  predicate Escapes(o: Outcome) {
    o == Raised(TransportError) || (o.Returned? && o.text.hits.None?)
  }

  /** The crash an escaping outcome becomes. */
  function EscapedCrash(o: Outcome): Crash {
    if o.Raised? then Uncaught(o.exception) else MalformedBody
  }

  /** The `while True` loop of one property type, from page `page` on. */
  function PaginateFrom(city: CityInfo, propertyType: int, page: nat, replies: seq<Reply>): (p: Progress<PageRun>)
    ensures p.Done? ==> MaxAttempts <= p.consumed <= |replies|
    ensures p.Crashed? ==> p.crash == Uncaught(TransportError) || p.crash == MalformedBody
    decreases |replies|
  {
    match Retry(replies)
    case Pending => Unfinished
    case Retried(o, n) =>
      if o.Raised? then
        if o.exception.ValueError? then Done(PageRun([], [BuildRequest(city, propertyType, page)]), n)
        else Crashed(Uncaught(o.exception))
      else if o.text.hits.None? then Crashed(MalformedBody)
      else
        NextPage(BuildRequest(city, propertyType, page), o.text.hits.value, n,
                 PaginateFrom(city, propertyType, page + 1, replies[n..]))
  }

  /** An answered call that sent `request`, got `hits` and used `n` replies,
      followed by the rest of the loop. */
  function NextPage(request: Request, hits: seq<Hit>, n: nat, rest: Progress<PageRun>): (p: Progress<PageRun>)
    ensures p.Done? <==> rest.Done?
    ensures p.Done? ==> && p.consumed == n + rest.consumed
                        && p.value.pages == [hits] + rest.value.pages
                        && p.value.requests == [request] + rest.value.requests
    ensures !p.Done? ==> p == rest
  {
    match rest
    case Done(run, c) => Done(PageRun([hits] + run.pages, [request] + run.requests), n + c)
    case Crashed(crash) => Crashed(crash)
    case Unfinished => Unfinished
  }

  /** The page counter starts at `page` and goes up by one per answered
      page: call i of a finished loop sent the payload of page `page` + i,
      and there is one call per answered page plus the final one. */
  lemma {:induction false} PaginateRequests(city: CityInfo, propertyType: int, page: nat, replies: seq<Reply>)
    requires PaginateFrom(city, propertyType, page, replies).Done?
    ensures var run := PaginateFrom(city, propertyType, page, replies).value;
            && |run.requests| == |run.pages| + 1
            && forall i :: 0 <= i < |run.requests| ==> run.requests[i] == BuildRequest(city, propertyType, page + i)
    decreases |replies|
  {
    var r := Retry(replies);
    if r.outcome.Returned? {
      PaginateRequests(city, propertyType, page + 1, replies[r.attempts..]);
    }
  }

  /** The `c` replies used end with three raising replies, the last one
      raising a `ValueError`. */
  predicate EndsExhausted(replies: seq<Reply>, c: nat) {
    && MaxAttempts <= c <= |replies|
    && (forall k :: c - MaxAttempts <= k < c ==> GetData(replies[k]).Raised?)
    && GetData(replies[c - 1]).exception.ValueError?
  }

  lemma EndsExhaustedShift(replies: seq<Reply>, n: nat, c: nat)
    requires n <= |replies| && EndsExhausted(replies[n..], c)
    ensures EndsExhausted(replies, n + c)
  {
    var tail := replies[n..];
    assert forall k :: c - MaxAttempts <= k < c ==> tail[k] == replies[n + k];
  }

  /** The loop's only exit: a call whose three attempts all raised, the
      last one with a `ValueError`. */
  lemma {:induction false} PaginateEndsOnValueError(city: CityInfo, propertyType: int, page: nat, replies: seq<Reply>)
    requires PaginateFrom(city, propertyType, page, replies).Done?
    ensures EndsExhausted(replies, PaginateFrom(city, propertyType, page, replies).consumed)
    decreases |replies|
  {
    var p := PaginateFrom(city, propertyType, page, replies);
    var r := Retry(replies);
    if r.outcome.Raised? {
      RetryRaisedAll(replies);
      assert p.consumed == MaxAttempts;
    } else {
      var n := r.attempts;
      var rest := PaginateFrom(city, propertyType, page + 1, replies[n..]);
      PaginateEndsOnValueError(city, propertyType, page + 1, replies[n..]);
      EndsExhaustedShift(replies, n, rest.consumed);
      assert p.consumed == n + rest.consumed;
    }
  }

  /** A call of the loop that is answered, with a readable page, after fewer
      than three raising replies. */
  datatype Call = Call(failures: seq<Reply>, answer: Reply)

  predicate Answers(c: Call) {
    && |c.failures| < MaxAttempts
    && (forall k :: 0 <= k < |c.failures| ==> GetData(c.failures[k]).Raised?)
    && GetData(c.answer).Returned?
    && c.answer.Response? && c.answer.text.hits.Some?
  }

  /** Three raising replies, the last one a 500 or 504. */
  predicate Exhausts(tries: seq<Reply>) {
    && |tries| == MaxAttempts
    && (forall k :: 0 <= k < |tries| ==> GetData(tries[k]).Raised?)
    && tries[MaxAttempts - 1].Response?
  }

  /** One property type's server behaviour: some answered calls, then one
      exhausted call. */
  datatype Script = Script(calls: seq<Call>, last: seq<Reply>)

  predicate WellFormed(s: Script) {
    (forall c :: c in s.calls ==> Answers(c)) && Exhausts(s.last)
  }

  function CallReplies(calls: seq<Call>): seq<Reply> {
    if |calls| == 0 then [] else calls[0].failures + [calls[0].answer] + CallReplies(calls[1..])
  }

  function Replies(s: Script): seq<Reply> {
    CallReplies(s.calls) + s.last
  }

  /** The hits of an answered call's page. */
  function PageOf(c: Call): seq<Hit> {
    if c.answer.Response? && c.answer.text.hits.Some? then c.answer.text.hits.value else []
  }

  function Pages(calls: seq<Call>): seq<seq<Hit>> {
    Map(calls, PageOf)
  }

  /** An exhausted first call ends the loop with no page. */
  lemma PaginateExhaustedStep(city: CityInfo, propertyType: int, page: nat, last: seq<Reply>, rest: seq<Reply>)
    requires Exhausts(last)
    ensures PaginateFrom(city, propertyType, page, last + rest)
            == Done(PageRun([], [BuildRequest(city, propertyType, page)]), MaxAttempts)
  {
    RetryExhausted(last, rest);
  }

  /** An answered first call contributes its page and passes the replies
      after it to the next page. */
  lemma PaginateAnsweredStep(city: CityInfo, propertyType: int, page: nat, c: Call, after: seq<Reply>)
    requires Answers(c)
    ensures PaginateFrom(city, propertyType, page, c.failures + [c.answer] + after)
            == NextPage(BuildRequest(city, propertyType, page), PageOf(c), |c.failures| + 1,
                        PaginateFrom(city, propertyType, page + 1, after))
  {
    RetryAnswered(c.failures, c.answer, after);
    assert (c.failures + [c.answer] + after)[|c.failures| + 1..] == after;
  }

  /** A script with an answered first call: its replies and pages are those
      of the first call followed by those of the rest of the script. */
  lemma ScriptCons(s: Script, rest: seq<Reply>)
    requires |s.calls| > 0
    ensures var tail := Script(s.calls[1..], s.last);
            && Replies(s) + rest == s.calls[0].failures + [s.calls[0].answer] + (Replies(tail) + rest)
            && |Replies(s)| == |s.calls[0].failures| + 1 + |Replies(tail)|
            && Pages(s.calls) == [PageOf(s.calls[0])] + Pages(tail.calls)
  {
    assert Pages(s.calls) == [PageOf(s.calls[0])] + Pages(s.calls[1..]);
  }

  /** Against a scripted server the loop returns the answered pages in call
      order and stops right after the exhausted call, whatever follows. */
  lemma {:induction false} PaginateScript(city: CityInfo, propertyType: int, page: nat, s: Script, rest: seq<Reply>)
    requires WellFormed(s)
    ensures var p := PaginateFrom(city, propertyType, page, Replies(s) + rest);
            && p.Done?
            && p.value.pages == Pages(s.calls)
            && p.consumed == |Replies(s)|
    decreases |s.calls|
  {
    if |s.calls| == 0 {
      assert Replies(s) + rest == s.last + rest;
      PaginateExhaustedStep(city, propertyType, page, s.last, rest);
    } else {
      var c := s.calls[0];
      assert c in s.calls;
      var tail := Script(s.calls[1..], s.last);
      var after := Replies(tail) + rest;
      ScriptCons(s, rest);
      PaginateAnsweredStep(city, propertyType, page, c, after);
      PaginateScript(city, propertyType, page + 1, tail, rest);
    }
  }

  /** A first call whose attempts all raised, the last with a `ValueError`:
      its three replies exhaust the call, and the loop ends there. */
  lemma PaginateRaisedStep(city: CityInfo, propertyType: int, page: nat, replies: seq<Reply>)
    requires Retry(replies).Retried? && Retry(replies).outcome.Raised?
    requires Retry(replies).outcome.exception.ValueError?
    ensures Exhausts(replies[..MaxAttempts])
    ensures PaginateFrom(city, propertyType, page, replies)
            == Done(PageRun([], [BuildRequest(city, propertyType, page)]), MaxAttempts)
  {
    RetryRaisedAll(replies);
  }

  /** A first call answered with a readable page after `n` replies is a
      `Call` that answers, and the loop goes on after it. */
  lemma PaginateReturnedStep(city: CityInfo, propertyType: int, page: nat, replies: seq<Reply>)
    requires Retry(replies).Retried? && Retry(replies).outcome.Returned?
    requires Retry(replies).outcome.text.hits.Some?
    ensures var n := Retry(replies).attempts;
            var c := Call(replies[..n - 1], replies[n - 1]);
            && Answers(c)
            && PaginateFrom(city, propertyType, page, replies)
               == NextPage(BuildRequest(city, propertyType, page), PageOf(c), n,
                           PaginateFrom(city, propertyType, page + 1, replies[n..]))
  {
  }

  /** The first `n + m` replies are the first call's and then `m` more. */
  lemma TakeSplit(replies: seq<Reply>, n: nat, m: nat)
    requires 1 <= n && n + m <= |replies|
    ensures replies[..n + m] == replies[..n - 1] + [replies[n - 1]] + replies[n..][..m]
  {
  }

  /** An answered call in front of a well-formed script gives a well-formed
      script with that call's replies and page in front. */
  lemma ScriptPrepend(c: Call, t: Script)
    requires Answers(c) && WellFormed(t)
    ensures var s := Script([c] + t.calls, t.last);
            && WellFormed(s)
            && Replies(s) == c.failures + [c.answer] + Replies(t)
            && Pages(s.calls) == [PageOf(c)] + Pages(t.calls)
  {
    var s := Script([c] + t.calls, t.last);
    assert s.calls[1..] == t.calls;
    ScriptCons(s, []);
  }

  /** Conversely, every finished loop ran against a scripted server: the
      replies it used are those of a well-formed script, and its pages are
      that script's answered pages. */
  lemma {:induction false} PaginateIsScripted(city: CityInfo, propertyType: int, page: nat, replies: seq<Reply>)
    returns (s: Script)
    requires PaginateFrom(city, propertyType, page, replies).Done?
    ensures WellFormed(s)
    ensures var p := PaginateFrom(city, propertyType, page, replies);
            && replies[..p.consumed] == Replies(s)
            && p.value.pages == Pages(s.calls)
    decreases |replies|
  {
    var p := PaginateFrom(city, propertyType, page, replies);
    var r := Retry(replies);
    var n := r.attempts;
    if r.outcome.Raised? {
      PaginateRaisedStep(city, propertyType, page, replies);
      s := Script([], replies[..MaxAttempts]);
      assert Replies(s) == s.last;
    } else {
      PaginateReturnedStep(city, propertyType, page, replies);
      var c := Call(replies[..n - 1], replies[n - 1]);
      var rest := PaginateFrom(city, propertyType, page + 1, replies[n..]);
      var t := PaginateIsScripted(city, propertyType, page + 1, replies[n..]);
      ScriptPrepend(c, t);
      s := Script([c] + t.calls, t.last);
      TakeSplit(replies, n, rest.consumed);
    }
  }

  /** A finished loop depends only on the replies it used. */
  lemma {:induction false} PaginateExtends(city: CityInfo, propertyType: int, page: nat, replies: seq<Reply>, more: seq<Reply>)
    requires PaginateFrom(city, propertyType, page, replies).Done?
    ensures PaginateFrom(city, propertyType, page, replies + more) == PaginateFrom(city, propertyType, page, replies)
    decreases |replies|
  {
    RetryExtends(replies, more);
    var r := Retry(replies);
    if r.outcome.Returned? {
      var n := r.attempts;
      assert (replies + more)[n..] == replies[n..] + more;
      PaginateExtends(city, propertyType, page + 1, replies[n..], more);
    }
  }

  /** A first call whose outcome escapes ends the loop with that crash,
      whatever the replies after it hold. */
  lemma PaginateCrashedStep(city: CityInfo, propertyType: int, page: nat, replies: seq<Reply>)
    requires Retry(replies).Retried? && Escapes(Retry(replies).outcome)
    ensures PaginateFrom(city, propertyType, page, replies) == Crashed(EscapedCrash(Retry(replies).outcome))
  {
  }

  lemma CallRepliesCons(c: Call, more: seq<Call>)
    ensures CallReplies([c] + more) == c.failures + [c.answer] + CallReplies(more)
  {
    assert ([c] + more)[1..] == more;
  }

  /** An answered first call followed by a crashing loop crashes the loop. */
  lemma PaginateAnsweredThenCrash(city: CityInfo, propertyType: int, page: nat, c: Call, after: seq<Reply>, whole: seq<Reply>)
    requires Answers(c) && PaginateFrom(city, propertyType, page + 1, after).Crashed?
    requires whole == c.failures + [c.answer] + after
    ensures PaginateFrom(city, propertyType, page, whole) == PaginateFrom(city, propertyType, page + 1, after)
  {
    PaginateAnsweredStep(city, propertyType, page, c, after);
  }

  /** The replies of answered calls followed by `tail` are the first
      call's replies followed by those of the others and `tail`. */
  lemma CallRepliesSplit(calls: seq<Call>, tail: seq<Reply>)
    requires |calls| > 0
    ensures CallReplies(calls) + tail == calls[0].failures + [calls[0].answer] + (CallReplies(calls[1..]) + tail)
  {
  }

  /** Answered calls before a call whose outcome escapes do not catch it:
      the whole loop crashes with that call's crash. With
      `PaginateCrashIsScripted` this describes every crashed loop. */
  lemma {:induction false} PaginateCrashAfterCalls(city: CityInfo, propertyType: int, page: nat, calls: seq<Call>, tail: seq<Reply>, whole: seq<Reply>)
    requires forall c :: c in calls ==> Answers(c)
    requires whole == CallReplies(calls) + tail
    requires Retry(tail).Retried? && Escapes(Retry(tail).outcome)
    ensures PaginateFrom(city, propertyType, page, whole) == Crashed(EscapedCrash(Retry(tail).outcome))
    decreases |calls|
  {
    if |calls| > 0 {
      var more := calls[1..];
      assert forall d :: d in more ==> d in calls;
      var after := CallReplies(more) + tail;
      PaginateCrashAfterCalls(city, propertyType, page + 1, more, tail, after);
      CallRepliesSplit(calls, tail);
      PaginateAnsweredThenCrash(city, propertyType, page, calls[0], after, whole);
    } else {
      assert whole == tail;
      PaginateCrashedStep(city, propertyType, page, tail);
    }
  }

  /** An answered first call whose rest crashed: the whole loop is that
      rest, and the call's replies are the first `n`. */
  lemma PaginateReturnedThenCrash(city: CityInfo, propertyType: int, page: nat, replies: seq<Reply>)
    requires Retry(replies).Retried? && Retry(replies).outcome.Returned?
    requires Retry(replies).outcome.text.hits.Some?
    requires PaginateFrom(city, propertyType, page, replies).Crashed?
    ensures var n := Retry(replies).attempts;
            && Answers(Call(replies[..n - 1], replies[n - 1]))
            && PaginateFrom(city, propertyType, page, replies) == PaginateFrom(city, propertyType, page + 1, replies[n..])
  {
    PaginateReturnedStep(city, propertyType, page, replies);
  }

  /** A first call on the first `n` replies, followed by calls and `rest`
      that make up the replies after them, makes up all the replies. */
  lemma CallsJoin(replies: seq<Reply>, n: nat, more: seq<Call>, rest: seq<Reply>)
    requires 1 <= n <= |replies| && replies[n..] == CallReplies(more) + rest
    ensures replies == CallReplies([Call(replies[..n - 1], replies[n - 1])] + more) + rest
  {
    var head := replies[..n - 1] + [replies[n - 1]];
    CallRepliesCons(Call(replies[..n - 1], replies[n - 1]), more);
    AppendAssoc(head, CallReplies(more), rest);
    HeadTail(replies, n);
  }

  lemma HeadTail(replies: seq<Reply>, n: nat)
    requires 1 <= n <= |replies|
    ensures replies == replies[..n - 1] + [replies[n - 1]] + replies[n..]
  {
  }

  /** Conversely, every crashed loop, on any stream, answered some calls and
      then made a call whose outcome escapes, and that call's crash is the
      loop's. */
  lemma {:induction false} PaginateCrashIsScripted(city: CityInfo, propertyType: int, page: nat, replies: seq<Reply>)
    returns (calls: seq<Call>, rest: seq<Reply>)
    requires PaginateFrom(city, propertyType, page, replies).Crashed?
    ensures forall c :: c in calls ==> Answers(c)
    ensures replies == CallReplies(calls) + rest
    ensures Retry(rest).Retried? && Escapes(Retry(rest).outcome)
    ensures PaginateFrom(city, propertyType, page, replies) == Crashed(EscapedCrash(Retry(rest).outcome))
    decreases |replies|
  {
    var r := Retry(replies);
    if r.outcome.Raised? || r.outcome.text.hits.None? {
      calls, rest := [], replies;
      assert CallReplies(calls) + rest == rest;
    } else {
      var n := r.attempts;
      PaginateReturnedThenCrash(city, propertyType, page, replies);
      var c := Call(replies[..n - 1], replies[n - 1]);
      var more;
      more, rest := PaginateCrashIsScripted(city, propertyType, page + 1, replies[n..]);
      calls := [c] + more;
      CallsJoin(replies, n, more, rest);
      assert forall d :: d in calls ==> d == c || d in more;
    }
  }

  /** A crashed loop depends only on the replies up to its crash: more
      replies after them change nothing, so no further POST is made. */
  lemma {:induction false} PaginateCrashExtends(city: CityInfo, propertyType: int, page: nat, replies: seq<Reply>, more: seq<Reply>)
    requires PaginateFrom(city, propertyType, page, replies).Crashed?
    ensures PaginateFrom(city, propertyType, page, replies + more) == PaginateFrom(city, propertyType, page, replies)
    decreases |replies|
  {
    RetryExtends(replies, more);
    var r := Retry(replies);
    if r.outcome.Returned? && r.outcome.text.hits.Some? {
      var n := r.attempts;
      assert (replies + more)[n..] == replies[n..] + more;
      PaginateCrashExtends(city, propertyType, page + 1, replies[n..], more);
    }
  }

  /** Two finished loops from the same page with the same pages sent the
      same payloads, so they are equal when they used as many replies. */
  lemma SamePagesSameRun(city: CityInfo, propertyType: int, page: nat, replies: seq<Reply>, other: seq<Reply>)
    requires PaginateFrom(city, propertyType, page, replies).Done?
    requires PaginateFrom(city, propertyType, page, other).Done?
    requires PaginateFrom(city, propertyType, page, replies).value.pages
             == PaginateFrom(city, propertyType, page, other).value.pages
    requires PaginateFrom(city, propertyType, page, replies).consumed
             == PaginateFrom(city, propertyType, page, other).consumed
    ensures PaginateFrom(city, propertyType, page, replies) == PaginateFrom(city, propertyType, page, other)
  {
    PaginateRequests(city, propertyType, page, replies);
    PaginateRequests(city, propertyType, page, other);
    var a := PaginateFrom(city, propertyType, page, replies).value;
    var b := PaginateFrom(city, propertyType, page, other).value;
    assert a.requests == b.requests;
  }

  /** The first `m` replies are the first `c` followed by those up to `m`. */
  lemma TakeAt(replies: seq<Reply>, c: nat, m: nat)
    requires c <= m <= |replies|
    ensures replies[..m] == replies[..c] + replies[c..m]
  {
  }

  /** On a prefix of the stream that still holds the replies a finished
      loop used, the loop finishes with the same pages and replies used. */
  lemma PaginatePrefix(city: CityInfo, propertyType: int, page: nat, replies: seq<Reply>, m: nat)
    requires PaginateFrom(city, propertyType, page, replies).Done?
    requires PaginateFrom(city, propertyType, page, replies).consumed <= m <= |replies|
    ensures var p := PaginateFrom(city, propertyType, page, replies);
            var q := PaginateFrom(city, propertyType, page, replies[..m]);
            q.Done? && q.value.pages == p.value.pages && q.consumed == p.consumed
  {
    var c := PaginateFrom(city, propertyType, page, replies).consumed;
    var s := PaginateIsScripted(city, propertyType, page, replies);
    TakeAt(replies, c, m);
    PaginateScript(city, propertyType, page, s, replies[c..m]);
  }

  /** A finished loop gives the same result on any prefix of the stream
      that still holds the replies it used. */
  lemma PaginateTruncate(city: CityInfo, propertyType: int, page: nat, replies: seq<Reply>, m: nat)
    requires PaginateFrom(city, propertyType, page, replies).Done?
    requires PaginateFrom(city, propertyType, page, replies).consumed <= m <= |replies|
    ensures PaginateFrom(city, propertyType, page, replies[..m]) == PaginateFrom(city, propertyType, page, replies)
  {
    PaginatePrefix(city, propertyType, page, replies, m);
    SamePagesSameRun(city, propertyType, page, replies[..m], replies);
  }

  /** The result of a finished stage that used `n` replies and produced
      `head`, followed by that of the stage run on the replies after them. */
  function Prepend<T>(head: seq<T>, n: nat, rest: Progress<seq<T>>): (r: Progress<seq<T>>)
    ensures r.Done? <==> rest.Done?
    ensures r.Done? ==> r.value == head + rest.value && r.consumed == n + rest.consumed
    ensures !r.Done? ==> r == rest
  {
    match rest
    case Done(more, m) => Done(head + more, n + m)
    case Crashed(crash) => Crashed(crash)
    case Unfinished => Unfinished
  }

  /** The `for` loop over property types: each one's counter starts at
      page 1 on the replies after the previous one's last. */
  function ExtractTypes(city: CityInfo, types: seq<int>, replies: seq<Reply>): (p: Progress<seq<PageRun>>)
    ensures p.Done? ==> |p.value| == |types|
    ensures p.Done? ==> MaxAttempts * |types| <= p.consumed <= |replies|
    decreases |types|
  {
    if |types| == 0 then Done([], 0)
    else
      match PaginateFrom(city, types[0], 1, replies)
      case Done(run, n) => Prepend([run], n, ExtractTypes(city, types[1..], replies[n..]))
      case Crashed(crash) => Crashed(crash)
      case Unfinished => Unfinished
  }

  /** `raw_data` is shared by all property types, so the answered pages
      accumulate in property-type order. */
  function AllPages(runs: seq<PageRun>): seq<seq<Hit>> {
    if |runs| == 0 then [] else runs[0].pages + AllPages(runs[1..])
  }

  /** `run` made one call per answered page plus the final one, and call i
      sent the payload of page `page` + i for `propertyType`. */
  predicate StartsAt(run: PageRun, city: CityInfo, propertyType: int, page: nat) {
    && |run.requests| == |run.pages| + 1
    && forall i :: 0 <= i < |run.requests| ==> run.requests[i] == BuildRequest(city, propertyType, page + i)
  }

  /** A finished loop over property types is the first type's finished run
      followed by the finished loop over the others. */
  lemma ExtractTypesCons(city: CityInfo, types: seq<int>, replies: seq<Reply>)
    requires |types| > 0 && ExtractTypes(city, types, replies).Done?
    ensures var first := PaginateFrom(city, types[0], 1, replies);
            && first.Done?
            && ExtractTypes(city, types[1..], replies[first.consumed..]).Done?
            && ExtractTypes(city, types, replies).value
               == [first.value] + ExtractTypes(city, types[1..], replies[first.consumed..]).value
  {
  }

  /** Every property type's `page` is reset to 1: in a finished loop over
      the property types, call i of type j sent the payload of page 1 + i,
      and each type made one call per answered page plus the final one. */
  lemma {:induction false} ExtractTypesFromPageOne(city: CityInfo, types: seq<int>, replies: seq<Reply>)
    requires ExtractTypes(city, types, replies).Done?
    ensures var runs := ExtractTypes(city, types, replies).value;
            forall j :: 0 <= j < |types| ==> StartsAt(runs[j], city, types[j], 1)
    decreases |types|
  {
    if |types| > 0 {
      ExtractTypesCons(city, types, replies);
      var first := PaginateFrom(city, types[0], 1, replies);
      var n := first.consumed;
      PaginateRequests(city, types[0], 1, replies);
      ExtractTypesFromPageOne(city, types[1..], replies[n..]);
      var runs := ExtractTypes(city, types, replies).value;
      var more := ExtractTypes(city, types[1..], replies[n..]).value;
      assert StartsAt(runs[0], city, types[0], 1);
      forall j | 1 <= j < |types|
        ensures StartsAt(runs[j], city, types[j], 1)
      {
        assert runs[j] == more[j - 1] && types[j] == types[1..][j - 1];
      }
    }
  }

  function ScriptReplies(scripts: seq<Script>): seq<Reply> {
    if |scripts| == 0 then [] else Replies(scripts[0]) + ScriptReplies(scripts[1..])
  }

  function ScriptPages(scripts: seq<Script>): seq<seq<Hit>> {
    if |scripts| == 0 then [] else Pages(scripts[0].calls) + ScriptPages(scripts[1..])
  }

  /** Against one script per property type, the pages of all property types
      are collected in property-type-then-page order. */
  lemma {:induction false} ExtractScript(city: CityInfo, types: seq<int>, scripts: seq<Script>, rest: seq<Reply>)
    requires |scripts| == |types|
    requires forall s :: s in scripts ==> WellFormed(s)
    ensures var p := ExtractTypes(city, types, ScriptReplies(scripts) + rest);
            p.Done? && AllPages(p.value) == ScriptPages(scripts) && p.consumed == |ScriptReplies(scripts)|
    decreases |types|
  {
    if |types| > 0 {
      var after := ScriptReplies(scripts[1..]) + rest;
      assert ScriptReplies(scripts) + rest == Replies(scripts[0]) + after;
      PaginateScript(city, types[0], 1, scripts[0], after);
      assert (Replies(scripts[0]) + after)[|Replies(scripts[0])|..] == after;
      ExtractScript(city, types[1..], scripts[1..], rest);
      var p := ExtractTypes(city, types, ScriptReplies(scripts) + rest);
      assert p.value[1..] == ExtractTypes(city, types[1..], after).value;
    }
  }

  /** A finished extraction depends only on the replies it used. */
  lemma {:induction false} ExtractTypesExtends(city: CityInfo, types: seq<int>, replies: seq<Reply>, more: seq<Reply>)
    requires ExtractTypes(city, types, replies).Done?
    ensures ExtractTypes(city, types, replies + more) == ExtractTypes(city, types, replies)
    decreases |types|
  {
    if |types| > 0 {
      var p := PaginateFrom(city, types[0], 1, replies);
      var n := p.consumed;
      var tail := replies[n..];
      assert ExtractTypes(city, types, replies) == Prepend([p.value], n, ExtractTypes(city, types[1..], tail));
      ExtractTypesExtends(city, types[1..], tail, more);
      PaginateExtends(city, types[0], 1, replies, more);
      DropAppend(replies, more, n);
      assert ExtractTypes(city, types, replies + more)
          == Prepend([p.value], n, ExtractTypes(city, types[1..], (replies + more)[n..]));
    }
  }

  /** When the first property type's loop finishes, the loop over the
      property types goes on with the others on the replies after it. */
  lemma ExtractTypesStep(city: CityInfo, types: seq<int>, replies: seq<Reply>)
    requires |types| > 0 && PaginateFrom(city, types[0], 1, replies).Done?
    ensures var first := PaginateFrom(city, types[0], 1, replies);
            ExtractTypes(city, types, replies)
            == Prepend([first.value], first.consumed, ExtractTypes(city, types[1..], replies[first.consumed..]))
  {
  }

  /** The loop over property types crashes exactly when one type's loop
      crashes after the earlier types finished, and with that crash. */
  lemma ExtractTypesCrashed(city: CityInfo, types: seq<int>, replies: seq<Reply>)
    requires |types| > 0
    ensures var first := PaginateFrom(city, types[0], 1, replies);
            && (ExtractTypes(city, types, replies).Crashed? <==>
                  first.Crashed? || (first.Done? && ExtractTypes(city, types[1..], replies[first.consumed..]).Crashed?))
            && (first.Crashed? ==> ExtractTypes(city, types, replies) == Crashed(first.crash))
            && (first.Done? && ExtractTypes(city, types[1..], replies[first.consumed..]).Crashed? ==>
                  ExtractTypes(city, types, replies) == ExtractTypes(city, types[1..], replies[first.consumed..]))
  {
  }

  /** Cutting a stream at `m` and dropping its first `n` replies is dropping
      them first and cutting at `m - n`. */
  lemma TakeDrop(replies: seq<Reply>, n: nat, m: nat)
    requires n <= m <= |replies|
    ensures replies[..m][n..] == replies[n..][..m - n]
  {
  }

  /** A finished loop over the property types gives the same result on any
      prefix of the stream that still holds the replies it used. */
  lemma {:induction false} ExtractTypesTruncate(city: CityInfo, types: seq<int>, replies: seq<Reply>, m: nat)
    requires ExtractTypes(city, types, replies).Done?
    requires ExtractTypes(city, types, replies).consumed <= m <= |replies|
    ensures ExtractTypes(city, types, replies[..m]) == ExtractTypes(city, types, replies)
    decreases |types|
  {
    if |types| > 0 {
      ExtractTypesCons(city, types, replies);
      var n := PaginateFrom(city, types[0], 1, replies).consumed;
      ExtractTypesStep(city, types, replies);
      PaginateTruncate(city, types[0], 1, replies, m);
      ExtractTypesStep(city, types, replies[..m]);
      TakeDrop(replies, n, m);
      ExtractTypesTruncate(city, types[1..], replies[n..], m - n);
    }
  }

  /** The scripts of a loop over property types: the first type's script
      followed by the others'. */
  lemma ScriptsCons(s0: Script, more: seq<Script>)
    ensures ScriptReplies([s0] + more) == Replies(s0) + ScriptReplies(more)
    ensures ScriptPages([s0] + more) == Pages(s0.calls) + ScriptPages(more)
  {
    assert ([s0] + more)[1..] == more;
  }

  /** The pages of a loop over property types: the first type's pages
      followed by the others'. */
  lemma AllPagesCons(run: PageRun, more: seq<PageRun>)
    ensures AllPages([run] + more) == run.pages + AllPages(more)
  {
    assert ([run] + more)[1..] == more;
  }

  /** The first `n + k` replies are the first `n` followed by `k` more. */
  lemma TakeConcat(replies: seq<Reply>, n: nat, k: nat)
    requires n + k <= |replies|
    ensures replies[..n + k] == replies[..n] + replies[n..][..k]
  {
  }

  /** Conversely, every finished loop over the property types ran against
      one scripted server per property type, in order: the replies it used
      are theirs, and its pages are their answered pages. */
  lemma {:induction false} ExtractTypesIsScripted(city: CityInfo, types: seq<int>, replies: seq<Reply>)
    returns (scripts: seq<Script>)
    requires ExtractTypes(city, types, replies).Done?
    ensures |scripts| == |types|
    ensures forall s :: s in scripts ==> WellFormed(s)
    ensures var p := ExtractTypes(city, types, replies);
            && replies[..p.consumed] == ScriptReplies(scripts)
            && AllPages(p.value) == ScriptPages(scripts)
    decreases |types|
  {
    if |types| == 0 {
      scripts := [];
    } else {
      ExtractTypesCons(city, types, replies);
      var first := PaginateFrom(city, types[0], 1, replies);
      var n := first.consumed;
      var rest := ExtractTypes(city, types[1..], replies[n..]);
      ExtractTypesStep(city, types, replies);
      var s0 := PaginateIsScripted(city, types[0], 1, replies);
      var more := ExtractTypesIsScripted(city, types[1..], replies[n..]);
      scripts := [s0] + more;
      ScriptsCons(s0, more);
      AllPagesCons(first.value, rest.value);
      TakeConcat(replies, n, rest.consumed);
    }
  }

  /** `data_extract`: the flattened hits of every answered page. With no
      property types, `raw_data2` is never bound and the return raises. */
  function DataExtract(city: CityInfo, types: seq<int>, replies: seq<Reply>): (p: Progress<seq<Hit>>)
    ensures p.Done? ==> MaxAttempts * |types| <= p.consumed <= |replies|
    ensures |types| == 0 ==> p == Crashed(UnboundRawData)
    ensures |types| > 0 && ExtractTypes(city, types, replies).Done? ==>
              p == Done(Flatten(AllPages(ExtractTypes(city, types, replies).value)), ExtractTypes(city, types, replies).consumed)
    ensures |types| > 0 && ExtractTypes(city, types, replies).Crashed? ==>
              p == Crashed(ExtractTypes(city, types, replies).crash)
    ensures |types| > 0 && ExtractTypes(city, types, replies).Unfinished? ==> p.Unfinished?
  {
    if |types| == 0 then Crashed(UnboundRawData)
    else
      match ExtractTypes(city, types, replies)
      case Done(runs, n) => Done(Flatten(AllPages(runs)), n)
      case Crashed(crash) => Crashed(crash)
      case Unfinished => Unfinished
  }

  /** Against scripted servers, `data_extract` returns every answered page's
      hits, property type by property type and page by page. */
  lemma DataExtractScript(city: CityInfo, types: seq<int>, scripts: seq<Script>, rest: seq<Reply>)
    requires |types| > 0 && |scripts| == |types|
    requires forall s :: s in scripts ==> WellFormed(s)
    ensures DataExtract(city, types, ScriptReplies(scripts) + rest)
            == Done(Flatten(ScriptPages(scripts)), |ScriptReplies(scripts)|)
  {
    ExtractScript(city, types, scripts, rest);
  }

  /** A finished `data_extract` gives the same result on any prefix of the
      stream that still holds the replies it used. */
  lemma DataExtractTruncate(city: CityInfo, types: seq<int>, replies: seq<Reply>, m: nat)
    requires DataExtract(city, types, replies).Done?
    requires DataExtract(city, types, replies).consumed <= m <= |replies|
    ensures DataExtract(city, types, replies[..m]) == DataExtract(city, types, replies)
  {
    ExtractTypesTruncate(city, types, replies, m);
  }

  /** A finished `data_extract` depends only on the replies it used. */
  lemma DataExtractExtends(city: CityInfo, types: seq<int>, replies: seq<Reply>, more: seq<Reply>)
    requires DataExtract(city, types, replies).Done?
    ensures DataExtract(city, types, replies + more) == DataExtract(city, types, replies)
  {
    ExtractTypesExtends(city, types, replies, more);
  }
}

=== FILE: rows.dfy ===
/** The cleaned listing as the three loaders read it back from the CSV file. */
module Rows {
  import opened Wrappers

  /** A cell the loaders copy without inspecting (id, price, bathrooms,
      garage, location), carried as its CSV text; a null in one of these
      columns is one more such value. */
  datatype Cell = Cell(text: string)

  /** One listing row. `area`, `rooms` and `stratum` may be null; `city` and
      `property_type` are always present. */
  datatype Row = Row(
    id: Cell,
    price: Cell,
    area: Option<Cell>,
    rooms: Option<int>,
    bathrooms: Cell,
    garage: Cell,
    propertyType: string,
    stratum: Option<int>,
    location: Cell,
    city: string)

  /** The studio-apartment property type, the one imputation treats apart. */
  const Apartaestudio: string := "Apartaestudio"

  /** Socioeconomic strata run from 1 to 6. */
  const MinStratum: int := 1
  const MaxStratum: int := 6

  predicate StratumInRange(r: Row) {
    r.stratum.Some? ==> MinStratum <= r.stratum.value <= MaxStratum
  }

  /** `x` moved into [lo, hi] by the nearest bound. */
  function Clamp(x: int, lo: int, hi: int): int
    requires lo <= hi
  {
    if x < lo then lo else if hi < x then hi else x
  }

  /** `o` equals `r` in every column except possibly `rooms` and `stratum`. */
  predicate OnlyRoomsAndStratumChanged(r: Row, o: Row) {
    o.(rooms := r.rooms, stratum := r.stratum) == r
  }
}

=== FILE: scraper.dfy ===
/** The scraper's `__main__`: extract every city in `city_information`
    order, concatenate the results, then clean each record. */
module Scraper {
  import opened Wrappers
  import opened Seqs
  import opened Normalize
  import opened Fetcher
  import opened Paginate

  /** `property_type_id`: casa, apartamento, apartaestudio. */
  const PropertyTypeIds: seq<int> := [1, 2, 14]

  /** `city_information`: Bogotá, Cali and Medellín. */
  const CityInformation: seq<CityInfo> := [
    CityInfo("Bogotá", "65d441f3-a239-4111-bc5b-01c5a268869f", "city-colombia-11-001",
             "Bogotá, d.c.", "2d9f0ad9-8b72-4364-a7dc-e161d7dddb4d", "state-colombia-11-bogota-dc",
             "Bogotá<br/><span style='font-size:12px'>Bogotá, d.c.</span>",
             "-74.10969158750584", "4.656350653340584"),
    CityInfo("Cali", "0e99ce18-9ff5-4c20-9b60-6150cc9e094b", "city-colombia-76-001",
             "Valle del cauca", "baa6a98e-3451-4ae9-b082-3e395a5f0504", "state-colombia-76-valle-del-cauca",
             "Cali<br/><span style='font-size:12px'>Valle del cauca</span>",
             "-76.52160156794767", "3.4143822546619274"),
    CityInfo("Medellín", "183f0a11-9452-4160-9089-1b0e7ed45863", "city-colombia-05-001",
             "Antioquia", "2d63ee80-421b-488f-992a-0e07a3264c3e", "state-colombia-05-antioquia",
             "Medellín<br/><span style='font-size:12px'>Antioquia</span>",
             "-75.57786065131165", "6.249816589298594")
  ]

  /** The extraction loop over the cities: each city's `data_extract` starts
      on the reply after the previous city's last one, and the hits are
      concatenated in city order. */
  function ExtractCities(cities: seq<CityInfo>, types: seq<int>, replies: seq<Reply>): (p: Progress<seq<Hit>>)
    ensures p.Done? ==> p.consumed <= |replies|
    decreases |cities|
  {
    if |cities| == 0 then Done([], 0)
    else
      match DataExtract(cities[0], types, replies)
      case Done(hits, n) => Prepend(hits, n, ExtractCities(cities[1..], types, replies[n..]))
      case Crashed(crash) => Crashed(crash)
      case Unfinished => Unfinished
  }

  /** The hits of a finished run, or none. */
  function HitsOf(p: Progress<seq<Hit>>): seq<Hit> {
    if p.Done? then p.value else []
  }

  /** Each city's `data_extract` result run on its own stream. */
  function CityHits(cities: seq<CityInfo>, types: seq<int>, streams: seq<seq<Reply>>): seq<seq<Hit>>
    requires |streams| == |cities|
  {
    if |cities| == 0 then []
    else [HitsOf(DataExtract(cities[0], types, streams[0]))] + CityHits(cities[1..], types, streams[1..])
  }

  /** `data_extract` of `city` finishes on `stream` and uses all of it. */
  predicate FinishesOn(city: CityInfo, types: seq<int>, stream: seq<Reply>) {
    DataExtract(city, types, stream).Done? && DataExtract(city, types, stream).consumed == |stream|
  }

  /** A stretch for the first city in front of stretches for the others. */
  lemma SplitShift(cities: seq<CityInfo>, types: seq<int>, first: seq<Reply>, more: seq<seq<Reply>>, streams: seq<seq<Reply>>)
    requires |cities| > 0 && streams == [first] + more && |more| == |cities| - 1
    requires FinishesOn(cities[0], types, first)
    requires forall j :: 0 <= j < |more| ==> FinishesOn(cities[1..][j], types, more[j])
    ensures forall i :: 0 <= i < |cities| ==> FinishesOn(cities[i], types, streams[i])
  {
    var p := (c: CityInfo, s: seq<Reply>) => FinishesOn(c, types, s);
    assert streams[1..] == more;
    ShiftPairs(cities, streams, p);
  }

  /** When every city's `data_extract` finishes on its own stretch of the
      stream, the hits are those of each city in `city_information` order. */
  lemma {:induction false} ExtractCitiesConcat(cities: seq<CityInfo>, types: seq<int>, streams: seq<seq<Reply>>, rest: seq<Reply>)
    requires |streams| == |cities|
    requires forall i :: 0 <= i < |cities| ==> FinishesOn(cities[i], types, streams[i])
    ensures var p := ExtractCities(cities, types, Flatten(streams) + rest);
            && p.Done? && p.consumed == |Flatten(streams)|
            && p.value == Flatten(CityHits(cities, types, streams))
    decreases |cities|
  {
    if |cities| > 0 {
      var first := DataExtract(cities[0], types, streams[0]);
      var after := Flatten(streams[1..]) + rest;
      assert Flatten(streams) + rest == streams[0] + after;
      DataExtractExtends(cities[0], types, streams[0], after);
      DropAppend(streams[0], after, |streams[0]|);
      ExtractCitiesConcat(cities[1..], types, streams[1..], rest);
      assert ExtractCities(cities, types, streams[0] + after)
          == Prepend(first.value, first.consumed, ExtractCities(cities[1..], types, after));
    }
  }

  /** A finished extraction of all cities is the first city's finished
      `data_extract` followed by the finished extraction of the others. */
  lemma ExtractCitiesCons(cities: seq<CityInfo>, types: seq<int>, replies: seq<Reply>)
    requires |cities| > 0 && ExtractCities(cities, types, replies).Done?
    ensures var first := DataExtract(cities[0], types, replies);
            && first.Done?
            && ExtractCities(cities[1..], types, replies[first.consumed..]).Done?
            && ExtractCities(cities, types, replies)
               == Prepend(first.value, first.consumed, ExtractCities(cities[1..], types, replies[first.consumed..]))
  {
  }

  /** Conversely, every finished extraction can be cut into one stretch of
      the stream per city, on which that city's `data_extract` finishes and
      uses the whole stretch. */
  lemma {:induction false} ExtractCitiesSplit(cities: seq<CityInfo>, types: seq<int>, replies: seq<Reply>)
    returns (streams: seq<seq<Reply>>)
    requires ExtractCities(cities, types, replies).Done?
    ensures |streams| == |cities|
    ensures forall i :: 0 <= i < |cities| ==> FinishesOn(cities[i], types, streams[i])
    ensures replies[..ExtractCities(cities, types, replies).consumed] == Flatten(streams)
    decreases |cities|
  {
    if |cities| == 0 {
      streams := [];
    } else {
      ExtractCitiesCons(cities, types, replies);
      var first := DataExtract(cities[0], types, replies);
      var n := first.consumed;
      var rest := ExtractCities(cities[1..], types, replies[n..]);
      DataExtractTruncate(cities[0], types, replies, n);
      var more := ExtractCitiesSplit(cities[1..], types, replies[n..]);
      streams := [replies[..n]] + more;
      FlattenCons(replies[..n], more);
      TakeConcat(replies, n, rest.consumed);
      SplitShift(cities, types, replies[..n], more, streams);
    }
  }

  /** Every finished extraction, on any stream, returns each city's hits
      concatenated in `city_information` order, each city's hits being those
      its own `data_extract` finds on its stretch of the stream. */
  lemma ExtractCitiesIsConcat(cities: seq<CityInfo>, types: seq<int>, replies: seq<Reply>)
    returns (streams: seq<seq<Reply>>)
    requires ExtractCities(cities, types, replies).Done?
    ensures |streams| == |cities|
    ensures replies[..ExtractCities(cities, types, replies).consumed] == Flatten(streams)
    ensures ExtractCities(cities, types, replies).value == Flatten(CityHits(cities, types, streams))
  {
    var c := ExtractCities(cities, types, replies).consumed;
    streams := ExtractCitiesSplit(cities, types, replies);
    var rest := replies[c..];
    ExtractCitiesConcat(cities, types, streams, rest);
    TakeAt(replies, c, |replies|);
    assert replies[c..|replies|] == rest && replies[..|replies|] == replies;
  }

  /** The loop over the cities crashes exactly when one city's
      `data_extract` raises after the earlier cities finished, and with that
      city's crash: nothing in `__main__` catches it. */
  lemma ExtractCitiesCrashed(cities: seq<CityInfo>, types: seq<int>, replies: seq<Reply>)
    requires |cities| > 0
    ensures var first := DataExtract(cities[0], types, replies);
            && (ExtractCities(cities, types, replies).Crashed? <==>
                  first.Crashed? || (first.Done? && ExtractCities(cities[1..], types, replies[first.consumed..]).Crashed?))
            && (first.Crashed? ==> ExtractCities(cities, types, replies) == Crashed(first.crash))
            && (first.Done? && ExtractCities(cities[1..], types, replies[first.consumed..]).Crashed? ==>
                  ExtractCities(cities, types, replies) == ExtractCities(cities[1..], types, replies[first.consumed..]))
  {
  }

  /** The list comprehension over `data_transform`: the first record that
      lacks a path stops it with that record's index and field. */
  function TransformAll(hits: seq<Hit>): (r: Result<seq<Listing>, Crash>)
    ensures r.Success? <==> forall i :: 0 <= i < |hits| ==> DataTransform(hits[i]).Success?
    ensures r.Success? ==> |r.value| == |hits|
    ensures r.Success? ==> forall i :: 0 <= i < |hits| ==> Success(r.value[i]) == DataTransform(hits[i])
    ensures r.Failure? ==> r.error.MalformedRecord? && r.error.index < |hits|
    ensures r.Failure? ==> DataTransform(hits[r.error.index]) == Failure(r.error.field)
    ensures r.Failure? ==> forall i :: 0 <= i < r.error.index ==> DataTransform(hits[i]).Success?
  {
    if |hits| == 0 then Success([])
    else
      match DataTransform(hits[0])
      case Failure(field) => Failure(MalformedRecord(0, field))
      case Success(listing) =>
        match TransformAll(hits[1..])
        case Success(more) => Success([listing] + more)
        case Failure(crash) => Failure(MalformedRecord(crash.index + 1, crash.field))
  }

  /** `__main__` up to the CSV write: the cleaned listings, one per extracted
      hit and in the same order. */
  function Run(cities: seq<CityInfo>, types: seq<int>, replies: seq<Reply>): (p: Progress<seq<Listing>>)
    ensures p.Done? <==> ExtractCities(cities, types, replies).Done? && TransformAll(ExtractCities(cities, types, replies).value).Success?
    ensures p.Done? ==> var extracted := ExtractCities(cities, types, replies).value;
              && p.consumed == ExtractCities(cities, types, replies).consumed
              && |p.value| == |extracted|
              && forall i :: 0 <= i < |extracted| ==> Success(p.value[i]) == DataTransform(extracted[i])
    ensures p.Unfinished? <==> ExtractCities(cities, types, replies).Unfinished?
    ensures ExtractCities(cities, types, replies).Crashed? ==> p == Crashed(ExtractCities(cities, types, replies).crash)
    ensures ExtractCities(cities, types, replies).Done? && TransformAll(ExtractCities(cities, types, replies).value).Failure? ==>
              p == Crashed(TransformAll(ExtractCities(cities, types, replies).value).error)
  {
    match ExtractCities(cities, types, replies)
    case Done(hits, n) =>
      (match TransformAll(hits)
       case Success(listings) => Done(listings, n)
       case Failure(crash) => Crashed(crash))
    case Crashed(crash) => Crashed(crash)
    case Unfinished => Unfinished
  }

  lemma MulStep(a: nat, k: nat)
    requires a > 0
    ensures a * k == k + (a - 1) * k
  {
  }

  /** Every city's every property type ends with an exhausted call, so a
      finished extraction used at least three replies per pair. */
  lemma {:induction false} ExtractCitiesLowerBound(cities: seq<CityInfo>, types: seq<int>, replies: seq<Reply>)
    requires ExtractCities(cities, types, replies).Done?
    ensures |cities| * (MaxAttempts * |types|) <= ExtractCities(cities, types, replies).consumed
    decreases |cities|
  {
    if |cities| > 0 {
      ExtractCitiesCons(cities, types, replies);
      var n := DataExtract(cities[0], types, replies).consumed;
      ExtractCitiesLowerBound(cities[1..], types, replies[n..]);
      MulStep(|cities|, MaxAttempts * |types|);
    }
  }

  /** The program's own run: every city of `city_information` with every
      property type of `property_type_id`; a finished run made at least
      three POSTs for each of the nine pairs. */
  function Scrape(replies: seq<Reply>): (p: Progress<seq<Listing>>)
    ensures p.Done? ==> 27 <= p.consumed <= |replies|
  {
    var p := Run(CityInformation, PropertyTypeIds, replies);
    if p.Done? then
      ExtractCitiesLowerBound(CityInformation, PropertyTypeIds, replies);
      p
    else p
  }
}

=== FILE: seqs.dfy ===
/** Sequence operations the dataframe engines perform on whole tables:
    row-wise mapping, filtering, duplicate removal and flattening. */
module Seqs {

  /** No two positions of `s` hold equal values. */
  predicate NoDup<T(==)>(s: seq<T>) {
    forall i, j :: 0 <= i < j < |s| ==> s[i] != s[j]
  }

  lemma HeadIn<T>(s: seq<T>)
    ensures |s| > 0 ==> s[0] in s
  {
  }

  /** Two different values form a sequence without repeats. */
  lemma NoDupPair<T>(a: T, b: T)
    requires a != b
    ensures NoDup([a, b])
  {
  }

  /** Applies `f` to every element, keeping positions. */
  function Map<T, U>(s: seq<T>, f: T -> U): (r: seq<U>)
    ensures |r| == |s|
    ensures forall i :: 0 <= i < |s| ==> r[i] == f(s[i])
  {
    seq(|s|, i requires 0 <= i < |s| => f(s[i]))
  }

  lemma MapPair<T, U>(a: T, b: T, f: T -> U)
    ensures Map([a, b], f) == [f(a), f(b)]
  {
  }

  lemma MapMembership<T, U>(s: seq<T>, f: T -> U, y: U)
    ensures y in Map(s, f) <==> exists x :: x in s && y == f(x)
  {
    if y in Map(s, f) {
      var i :| 0 <= i < |s| && Map(s, f)[i] == y;
      assert s[i] in s;
    }
  }

  /** Every element of `Map(s, f)` is the image of an element of `s`, and
      every image is in it. */
  lemma MapImage<T, U>(s: seq<T>, f: T -> U)
    ensures forall y :: y in Map(s, f) ==> exists x :: x in s && y == f(x)
    ensures forall x :: x in s ==> f(x) in Map(s, f)
  {
    forall y | y in Map(s, f)
      ensures exists x :: x in s && y == f(x)
    {
      MapMembership(s, f, y);
    }
    forall x | x in s
      ensures f(x) in Map(s, f)
    {
      MapMembership(s, f, f(x));
    }
  }

  /** Keeps the elements satisfying `p`, in order. */
  function Filter<T(!new)>(s: seq<T>, p: T -> bool): (r: seq<T>)
    ensures |r| <= |s|
    ensures forall x :: x in r <==> x in s && p(x)
  {
    if |s| == 0 then []
    else
      var rest := Filter(s[1..], p);
      assert forall x :: x in s <==> x == s[0] || x in s[1..];
      if p(s[0]) then [s[0]] + rest else rest
  }

  /** Filtering keeps every element when all of them pass. */
  lemma {:induction false} FilterAll<T(!new)>(s: seq<T>, p: T -> bool)
    requires forall x :: x in s ==> p(x)
    ensures Filter(s, p) == s
  {
    if |s| > 0 {
      assert forall x :: x in s[1..] ==> x in s;
      FilterAll(s[1..], p);
      assert s == [s[0]] + s[1..];
    }
  }

  /** Filtering a sequence without repeats leaves none. */
  lemma {:induction false} FilterNoDup<T(!new)>(s: seq<T>, p: T -> bool)
    requires NoDup(s)
    ensures NoDup(Filter(s, p))
  {
    if |s| > 0 {
      assert NoDup(s[1..]) by {
        forall i, j | 0 <= i < j < |s| - 1
          ensures s[1..][i] != s[1..][j]
        {
          assert s[1..][i] == s[i + 1] && s[1..][j] == s[j + 1];
        }
      }
      FilterNoDup(s[1..], p);
      assert s[0] !in s[1..] by {
        forall k | 0 <= k < |s| - 1
          ensures s[1..][k] != s[0]
        {
          assert s[1..][k] == s[k + 1];
        }
      }
    }
  }

  /** Removes later copies of equal elements, keeping each first occurrence
      where it stands. */
  function Dedup<T(==,!new)>(s: seq<T>): (r: seq<T>)
    ensures NoDup(r)
    ensures forall x :: x in r <==> x in s
    ensures |r| <= |s|
  {
    if |s| == 0 then []
    else
      var d := Dedup(s[..|s| - 1]);
      var last := s[|s| - 1];
      assert s == s[..|s| - 1] + [last];
      if last in d then d else d + [last]
  }

  /** Position of the first occurrence of `x` in `s`. */
  function IndexOf<T(==)>(s: seq<T>, x: T): (k: nat)
    requires x in s
    ensures k < |s| && s[k] == x && x !in s[..k]
  {
    if s[0] == x then 0
    else
      assert x in s[1..];
      var k := 1 + IndexOf(s[1..], x);
      assert s[..k] == [s[0]] + s[1..][..k - 1];
      k
  }

  lemma IndexOfUnique<T>(s: seq<T>, x: T, k: nat)
    requires k < |s| && s[k] == x && x !in s[..k]
    ensures IndexOf(s, x) == k
  {
  }

  lemma IndexOfPrefix<T>(s: seq<T>, m: nat, x: T)
    requires m <= |s| && x in s[..m]
    ensures IndexOf(s, x) == IndexOf(s[..m], x)
  {
    var k := IndexOf(s[..m], x);
    assert s[..m][..k] == s[..k];
    IndexOfUnique(s, x, k);
  }

  /** `s` lists values of `col` in the order of their first appearance in `col`. */
  ghost predicate InFirstAppearanceOrder<T>(col: seq<T>, s: seq<T>) {
    && (forall y :: y in s ==> y in col)
    && (forall i, j :: 0 <= i < j < |s| ==> IndexOf(col, s[i]) < IndexOf(col, s[j]))
  }

  /** Dedup lists the distinct values in the order of their first appearance. */
  lemma {:induction false} DedupFirstAppearance<T(!new)>(s: seq<T>)
    ensures InFirstAppearanceOrder(s, Dedup(s))
  {
    if |s| > 0 {
      var n := |s|;
      var init := s[..n - 1];
      var last := s[n - 1];
      var d := Dedup(init);
      DedupFirstAppearance(init);
      forall x | x in d
        ensures IndexOf(s, x) == IndexOf(init, x)
      {
        IndexOfPrefix(s, n - 1, x);
      }
      if last !in d {
        assert last !in s[..n - 1];
        IndexOfUnique(s, last, n - 1);
        assert Dedup(s) == d + [last];
      }
    }
  }

  /** Two such sequences with the same members start with the same value. */
  lemma FirstAppearanceHead<T>(col: seq<T>, a: seq<T>, b: seq<T>)
    requires InFirstAppearanceOrder(col, a) && InFirstAppearanceOrder(col, b)
    requires forall y :: y in a <==> y in b
    requires |a| > 0 && |b| > 0
    ensures a[0] == b[0]
  {
    assert a[0] in b && b[0] in a;
    var k :| 0 <= k < |b| && b[k] == a[0];
    var m :| 0 <= m < |a| && a[m] == b[0];
    assert IndexOf(col, a[0]) <= IndexOf(col, a[m]);
    assert IndexOf(col, b[0]) <= IndexOf(col, b[k]);
  }

  /** Dropping an equal head from two such sequences keeps them such. */
  lemma FirstAppearanceTail<T>(col: seq<T>, a: seq<T>, b: seq<T>)
    requires InFirstAppearanceOrder(col, a) && InFirstAppearanceOrder(col, b)
    requires forall y :: y in a <==> y in b
    requires |a| > 0 && |b| > 0 && a[0] == b[0]
    ensures InFirstAppearanceOrder(col, a[1..]) && InFirstAppearanceOrder(col, b[1..])
    ensures forall y :: y in a[1..] <==> y in b[1..]
  {
    forall y
      ensures y in a[1..] <==> y in b[1..]
    {
      if y in a[1..] {
        var i :| 1 <= i < |a| && a[i] == y;
        assert IndexOf(col, a[0]) < IndexOf(col, a[i]);
        assert y in b;
      }
      if y in b[1..] {
        var i :| 1 <= i < |b| && b[i] == y;
        assert IndexOf(col, b[0]) < IndexOf(col, b[i]);
        assert y in a;
      }
    }
  }

  /** At most one sequence holds given values in first-appearance order. */
  lemma {:induction false} FirstAppearanceUnique<T>(col: seq<T>, a: seq<T>, b: seq<T>)
    requires InFirstAppearanceOrder(col, a) && InFirstAppearanceOrder(col, b)
    requires forall y :: y in a <==> y in b
    ensures a == b
  {
    if |a| == 0 || |b| == 0 {
      HeadIn(a);
      HeadIn(b);
    } else {
      FirstAppearanceHead(col, a, b);
      FirstAppearanceTail(col, a, b);
      FirstAppearanceUnique(col, a[1..], b[1..]);
      assert a == [a[0]] + a[1..] && b == [b[0]] + b[1..];
    }
  }

  /** A sequence without duplicates is its own Dedup. */
  lemma {:induction false} DedupOfNoDup<T(!new)>(s: seq<T>)
    requires NoDup(s)
    ensures Dedup(s) == s
  {
    if |s| > 0 {
      var init := s[..|s| - 1];
      DedupOfNoDup(init);
      assert s == init + [s[|s| - 1]];
    }
  }

  /** A property of the first pair and of every pair after it holds of
      every pair. */
  lemma ShiftPairs<A, B>(xs: seq<A>, ys: seq<B>, p: (A, B) -> bool)
    requires |xs| == |ys| > 0 && p(xs[0], ys[0])
    requires forall j :: 0 <= j < |xs| - 1 ==> p(xs[1..][j], ys[1..][j])
    ensures forall i :: 0 <= i < |xs| ==> p(xs[i], ys[i])
  {
    forall i | 1 <= i < |xs|
      ensures p(xs[i], ys[i])
    {
      assert xs[1..][i - 1] == xs[i] && ys[1..][i - 1] == ys[i];
    }
  }

  lemma AppendAssoc<T>(a: seq<T>, b: seq<T>, c: seq<T>)
    ensures (a + b) + c == a + (b + c)
  {
  }

  /** Dropping a prefix of `a` from `a + b` keeps all of `b`. */
  lemma DropAppend<T>(a: seq<T>, b: seq<T>, n: nat)
    requires n <= |a|
    ensures (a + b)[n..] == a[n..] + b
  {
  }

  /** Concatenates the sequences of `ss`, in order. */
  function Flatten<T>(ss: seq<seq<T>>): seq<T> {
    if |ss| == 0 then [] else ss[0] + Flatten(ss[1..])
  }

  lemma FlattenCons<T>(x: seq<T>, more: seq<seq<T>>)
    ensures Flatten([x] + more) == x + Flatten(more)
  {
    assert ([x] + more)[1..] == more;
  }
}

=== FILE: tables.dfy ===
/** Dimension tables, left joins and the projected fact table shared by the
    polars and pandas `create_tables`. */
module Tables {
  import opened Wrappers
  import opened Seqs
  import opened Rows

  /** One row of a dimension table: a surrogate key and the value it stands for. */
  datatype DimRow = DimRow(id: int, name: string)

  /** A row between the joins: the listing and the keys attached so far. */
  datatype Keyed = Keyed(row: Row, cityId: Option<int>, propertyTypeId: Option<int>)

  /** One row of the fact table; the fields are the projected columns, in
      their order: id, price, area, rooms, bathrooms, garage,
      property_type_id, stratum, location, city_id. */
  datatype FactRow = FactRow(
    id: Cell,
    price: Cell,
    area: Option<Cell>,
    rooms: Option<int>,
    bathrooms: Cell,
    garage: Cell,
    propertyTypeId: Option<int>,
    stratum: Option<int>,
    location: Cell,
    cityId: Option<int>)

  /** The list `create_tables` returns: fact table, cities, property types. */
  datatype Tables = Tables(fact: seq<FactRow>, cities: seq<DimRow>, propertyTypes: seq<DimRow>)

  function Names(dim: seq<DimRow>): seq<string> {
    Map(dim, (d: DimRow) => d.name)
  }

  function CityColumn(rows: seq<Row>): seq<string> {
    Map(rows, (r: Row) => r.city)
  }

  function PropertyTypeColumn(rows: seq<Row>): seq<string> {
    Map(rows, (r: Row) => r.propertyType)
  }

  /** Surrogate keys 1..N in table order. */
  predicate Consecutive(dim: seq<DimRow>) {
    forall i :: 0 <= i < |dim| ==> dim[i].id == i + 1
  }

  /** Attaches a 1-based row index to each value. */
  function Number(names: seq<string>): (dim: seq<DimRow>)
    ensures Consecutive(dim)
    ensures Names(dim) == names
  {
    seq(|names|, i requires 0 <= i < |names| => DimRow(i + 1, names[i]))
  }

  /** Ids of the dimension rows whose value is `key`, in table order. */
  function Matches(dim: seq<DimRow>, key: string): (ids: seq<int>)
    ensures forall id :: id in ids <==> DimRow(id, key) in dim
  {
    if |dim| == 0 then []
    else
      assert forall d :: d in dim <==> d == dim[0] || d in dim[1..];
      (if dim[0].name == key then [dim[0].id] else []) + Matches(dim[1..], key)
  }

  /** The key of the first dimension row whose value is `key`. */
  function KeyOf(dim: seq<DimRow>, key: string): (id: Option<int>)
    ensures id.Some? ==> DimRow(id.value, key) in dim
    ensures id.None? ==> forall d :: d in dim ==> d.name != key
  {
    if |dim| == 0 then None
    else if dim[0].name == key then Some(dim[0].id)
    else KeyOf(dim[1..], key)
  }

  /** The value of the first dimension row whose key is `id`. */
  function NameOf(dim: seq<DimRow>, id: int): (name: Option<string>)
    ensures name.Some? ==> DimRow(id, name.value) in dim
    ensures name.None? ==> forall d :: d in dim ==> d.id != id
  {
    if |dim| == 0 then None
    else if dim[0].id == id then Some(dim[0].name)
    else NameOf(dim[1..], id)
  }

  /** A left join of `rows` with `dim` on `key`: each row appears once per
      matching dimension row with that row's id attached, and a row with no
      match appears once with a null id. */
  function LeftJoin(rows: seq<Keyed>, dim: seq<DimRow>, key: Keyed -> string,
                    attach: (Keyed, Option<int>) -> Keyed): seq<Keyed>
  {
    if |rows| == 0 then []
    else
      var ms := Matches(dim, key(rows[0]));
      var joined := if |ms| == 0 then [attach(rows[0], None)]
                    else Map(ms, (id: int) => attach(rows[0], Some(id)));
      joined + LeftJoin(rows[1..], dim, key, attach)
  }

  lemma {:induction false} MatchesDistinct(dim: seq<DimRow>, key: string)
    requires NoDup(Names(dim))
    ensures Matches(dim, key) == if KeyOf(dim, key).Some? then [KeyOf(dim, key).value] else []
  {
    if |dim| > 0 {
      assert Names(dim[1..]) == Names(dim)[1..];
      MatchesDistinct(dim[1..], key);
      if dim[0].name == key {
        forall d | d in dim[1..]
          ensures d.name != key
        {
          var j :| 0 <= j < |dim[1..]| && dim[1..][j] == d;
          assert Names(dim)[j + 1] == d.name;
          assert Names(dim)[0] == key;
        }
      }
    }
  }

  /** When the dimension values are distinct, a left join keeps one row per
      input row, in order, and attaches the key of the matching value (null
      when there is none). */
  lemma {:induction false} LeftJoinDistinct(rows: seq<Keyed>, dim: seq<DimRow>, key: Keyed -> string,
                                            attach: (Keyed, Option<int>) -> Keyed)
    requires NoDup(Names(dim))
    ensures |LeftJoin(rows, dim, key, attach)| == |rows|
    ensures forall i :: 0 <= i < |rows| ==>
              LeftJoin(rows, dim, key, attach)[i] == attach(rows[i], KeyOf(dim, key(rows[i])))
  {
    if |rows| > 0 {
      MatchesDistinct(dim, key(rows[0]));
      LeftJoinDistinct(rows[1..], dim, key, attach);
    }
  }

  function Unkeyed(r: Row): Keyed {
    Keyed(r, None, None)
  }

  function CityKey(k: Keyed): string {
    k.row.city
  }

  function WithCity(k: Keyed, id: Option<int>): Keyed {
    k.(cityId := id)
  }

  function PropertyTypeKey(k: Keyed): string {
    k.row.propertyType
  }

  function WithPropertyType(k: Keyed, id: Option<int>): Keyed {
    k.(propertyTypeId := id)
  }

  /** The projection to the fact columns; `city` and `property_type` are dropped. */
  function Project(k: Keyed): FactRow {
    var r := k.row;
    FactRow(r.id, r.price, r.area, r.rooms, r.bathrooms, r.garage,
            k.propertyTypeId, r.stratum, r.location, k.cityId)
  }

  /** The fact table: join to the cities, then to the property types, then project. */
  function BuildFact(rows: seq<Row>, cities: seq<DimRow>, propertyTypes: seq<DimRow>): seq<FactRow> {
    var withCity := LeftJoin(Map(rows, Unkeyed), cities, CityKey, WithCity);
    Map(LeftJoin(withCity, propertyTypes, PropertyTypeKey, WithPropertyType), Project)
  }

  /** `f` keeps every column of `r` that is not replaced by a key. */
  predicate Carries(f: FactRow, r: Row) {
    && f.id == r.id && f.price == r.price && f.area == r.area && f.rooms == r.rooms
    && f.bathrooms == r.bathrooms && f.garage == r.garage && f.stratum == r.stratum
    && f.location == r.location
  }

  /** The key `id` of a numbered dimension table stands for `name`. */
  predicate KeyFor(dim: seq<DimRow>, id: Option<int>, name: string) {
    id.Some? && NameOf(dim, id.value) == Some(name)
  }

  lemma NumberedKeyRoundTrip(names: seq<string>, name: string)
    requires NoDup(names) && name in names
    ensures KeyFor(Number(names), KeyOf(Number(names), name), name)
  {
    var dim := Number(names);
    var id := KeyOf(dim, name);
    assert name == Names(dim)[IndexOf(names, name)];
    var n := NameOf(dim, id.value);
    var i :| 0 <= i < |dim| && dim[i] == DimRow(id.value, name);
    var j :| 0 <= j < |dim| && dim[j] == DimRow(id.value, n.value);
    assert names[i] == name && names[j] == n.value;
  }

  /** With distinct dimension values, fact row i is input row i with the
      keys of its city and property type attached, then projected. */
  lemma BuildFactRows(rows: seq<Row>, cities: seq<DimRow>, propertyTypes: seq<DimRow>)
    requires NoDup(Names(cities)) && NoDup(Names(propertyTypes))
    ensures |BuildFact(rows, cities, propertyTypes)| == |rows|
    ensures forall i :: 0 <= i < |rows| ==>
              BuildFact(rows, cities, propertyTypes)[i]
              == Project(Keyed(rows[i], KeyOf(cities, rows[i].city), KeyOf(propertyTypes, rows[i].propertyType)))
  {
    var keyed := Map(rows, Unkeyed);
    LeftJoinDistinct(keyed, cities, CityKey, WithCity);
    var withCity := LeftJoin(keyed, cities, CityKey, WithCity);
    LeftJoinDistinct(withCity, propertyTypes, PropertyTypeKey, WithPropertyType);
  }

  /** The tables of `create_tables` once the dimension values are chosen:
      both dimensions are numbered 1..N, and the fact table has one row per
      input row whose keys lead back to the row's city and property type. */
  function Build(rows: seq<Row>, cityNames: seq<string>, typeNames: seq<string>): (t: Tables)
    requires NoDup(cityNames) && NoDup(typeNames)
    requires forall r :: r in rows ==> r.city in cityNames && r.propertyType in typeNames
    ensures Consecutive(t.cities) && Names(t.cities) == cityNames
    ensures Consecutive(t.propertyTypes) && Names(t.propertyTypes) == typeNames
    ensures |t.fact| == |rows|
    ensures forall i :: 0 <= i < |rows| ==>
              && Carries(t.fact[i], rows[i])
              && KeyFor(t.cities, t.fact[i].cityId, rows[i].city)
              && KeyFor(t.propertyTypes, t.fact[i].propertyTypeId, rows[i].propertyType)
  {
    var cities := Number(cityNames);
    var types := Number(typeNames);
    var fact := BuildFact(rows, cities, types);
    BuildFactRows(rows, cities, types);
    assert forall i :: 0 <= i < |rows| ==>
             KeyFor(cities, fact[i].cityId, rows[i].city)
             && KeyFor(types, fact[i].propertyTypeId, rows[i].propertyType) by {
      forall i | 0 <= i < |rows|
        ensures KeyFor(cities, fact[i].cityId, rows[i].city)
        ensures KeyFor(types, fact[i].propertyTypeId, rows[i].propertyType)
      {
        assert rows[i] in rows;
        NumberedKeyRoundTrip(cityNames, rows[i].city);
        NumberedKeyRoundTrip(typeNames, rows[i].propertyType);
      }
    }
    Tables(fact, cities, types)
  }
}

=== FILE: variants.dfy ===
/** Where the three loaders agree and where they differ. */
module Variants {
  import opened Seqs
  import opened Rows
  import opened Lex
  import opened Tables
  import LoadPolars
  import LoadPandas
  import LoadPyspark

  /** The pandas and polars row rules give the same row exactly when the row
      is not a studio apartment with a zero or negative `rooms` (pandas sets
      1, polars keeps it) and its stratum is not below 1 (polars raises it to
      1, pandas keeps it). */
  lemma RowRulesAgreeExactlyWhen(r: Row)
    ensures LoadPandas.ImputeRow(r) == LoadPolars.ImputeRow(r) <==>
              && !(r.propertyType == Apartaestudio && r.rooms.Some? && r.rooms.value <= 0)
              && !(r.stratum.Some? && r.stratum.value < MinStratum)
  {
    var pandas := LoadPandas.ImputeRow(r);
    var polars := LoadPolars.ImputeRow(r);
    if r.propertyType == Apartaestudio && r.rooms.Some? && r.rooms.value <= 0 {
      assert pandas.rooms != polars.rooms;
    }
    if r.stratum.Some? && r.stratum.value < MinStratum {
      assert pandas.stratum != polars.stratum;
    }
  }

  /** A row with a null area survives the pandas loader and is dropped by the
      polars loader, and by the pyspark one where that module imports. */
  lemma NullAreaKeptOnlyByPandas(rows: seq<Row>, r: Row)
    requires r in rows && r.area.None?
    ensures LoadPandas.ImputeRow(r) in LoadPandas.ImputeValues(rows)
    ensures LoadPandas.ImputeRow(r).area.None?
    ensures forall o :: o in LoadPolars.ImputeValues(rows) ==> o.area.Some?
    ensures forall o :: o in LoadPyspark.ImputeValues(rows) ==> o.area.Some?
  {
  }

  /** With rows from Cali and then Bogotá, polars numbers Bogotá 1 and Cali 2
      (sorted order) ... */
  lemma PolarsNumbersSorted(rows: seq<Row>)
    requires CityColumn(rows) == ["Cali", "Bogotá"]
    ensures LoadPolars.CreateTables(rows).cities == [DimRow(1, "Bogotá"), DimRow(2, "Cali")]
  {
    assert Less("Bogotá", "Cali");
    LoadPolars.CityTableIsSortedDistinct(rows, ["Bogotá", "Cali"]);
  }

  /** ... while pandas numbers Cali 1 and Bogotá 2 (order of first appearance). */
  lemma PandasNumbersByFirstAppearance(rows: seq<Row>)
    requires CityColumn(rows) == ["Cali", "Bogotá"]
    ensures LoadPandas.CreateTables(rows).cities == [DimRow(1, "Cali"), DimRow(2, "Bogotá")]
  {
    var column := CityColumn(rows);
    assert column[..1] == ["Cali"];
    IndexOfUnique(column, "Cali", 0);
    IndexOfUnique(column, "Bogotá", 1);
    assert InFirstAppearanceOrder(column, ["Cali", "Bogotá"]);
    LoadPandas.CityTableIsFirstAppearance(rows, ["Cali", "Bogotá"]);
  }
}

=== FILE: wrappers.dfy ===
/** Option and Result, the two failure-compatible wrappers the model uses for
    nullable columns, absent JSON paths and raised exceptions. */
module Wrappers {

  /** A value that may be absent: a null cell, a missing JSON key. */
  datatype Option<+T> = None | Some(value: T) {

    predicate IsFailure() {
      None?
    }

    function PropagateFailure<U>(): Option<U>
      requires None?
    {
      None
    }

    function Extract(): T
      requires Some?
    {
      value
    }

    /** Turns an absent value into the given error. */
    function ToResult<E>(error: E): Result<T, E> {
      match this
      case Some(v) => Success(v)
      case None => Failure(error)
    }
  }

  /** The outcome of a step that may raise. */
  datatype Result<+T, +E> = Success(value: T) | Failure(error: E) {

    predicate IsFailure() {
      Failure?
    }

    function PropagateFailure<U>(): Result<U, E>
      requires Failure?
    {
      Failure(error)
    }

    function Extract(): T
      requires Success?
    {
      value
    }
  }
}
